=== FILE: README.md ===
# Weather query engine — a Dafny model

This project models the core of a small weather-query service written in Rust.
At start-up the service parses a CSV file of daily Seattle weather into entries:
- the date;
- four `f32` measurements;
- a weather kind: drizzle, rain, snow, sun or fog.

The entries are sorted by date. Two write-once indexes are built: date → entry and kind → entries. Queries with an optional limit, date and weather kind are answered from these indexes or by a scan. Every operation is a pure Dafny function, except two methods: index building, which is written as loops, and start-up, which loads the file and then builds the indexes.

Modules, in dependency order:

- `Wrappers`: `Option` and `Result`.
- `Numerals`: decimal numerals as nom's `u32`/`i32` parsers read them, with checked accumulation that fails on overflow. Also Rust's `str::parse::<usize>` for a 64-bit `usize`.
- `Calendar`: dates as `chrono::NaiveDate::from_ymd_opt` accepts them (proleptic Gregorian, years -262143 to 262142), and their chronological order.
- `DateParser`: `parse_date`, which reads year, dash, month, dash and day, then applies the calendar check.
- `WeatherKinds`: `WeatherKind` and its ASCII-case-insensitive string conversion.
- `TextLines`: `str::lines`.
- `WeatherRows`: `WeatherEntry` and `parse_weather_row`. Floats are read by a caller-supplied reader; measurements are opaque bit patterns.
- `WeatherFile`: `parse_weather_file_contents` and the post-parse logic of `weather_entries`:
  - the error count check;
  - the date sort.
- `DateSort`: the stable `sort_by_key` on dates.
- `IndexStore`: the dataset and the two index cells, and `populate_indexes`.
- `QueryPlanner`: `WeatherQuery` and `handle_query` with its three paths.
- `QueryRequests`: the conversion of a request's text parameters into a `WeatherQuery`.
- `Startup`: the dataset as loaded from a file, with indexes built over it.

Points where the model fixes what the code does:

- The load fails whenever any row fails to parse, even when other rows parsed. `weather_entries` parses and counts every row first (src/weather_data.rs:148-160), then panics if the error count is positive (src/weather_data.rs:162-164).
- `full_scan` reads the dataset directly and needs no index (src/indexes.rs:123-129). A query with neither a date nor a kind therefore succeeds before the indexes are built. Only the two index paths fail with `NotPopulated`.
- The two index cells are two optional fields, and the date cell is written first. A second `populate_indexes` fails with `AlreadyPopulated`, where the code's `.expect` calls at src/indexes.rs:46 and 62 panic. A query on a path whose cell is unset fails with `NotPopulated`, where the `.expect` calls at src/indexes.rs:79 and 107 panic. The load's `panic!` at src/weather_data.rs:163 becomes the `ParseErrors` value in the same way.

## Model

| member | source | states |
|---|---|---|
| Numerals.DigitRun | src/weather_data.rs:82 | the digit parsers read the longest run of ASCII digits: every character in the run is a digit, and the next one is not |
| Numerals.CheckedDigitsOverflow | src/weather_data.rs:82 | nom's digit-by-digit checked loop fails exactly when the value of the whole digit run exceeds the bound, and otherwise returns that value and the text after the run |
| Numerals.ParseUnsigned | src/weather_data.rs:82 | `u32` fails on no digit or on overflow; otherwise it gives the value of the maximal digit run and the rest of the text |
| Numerals.ParseI32 | src/weather_data.rs:82 | an accepted year lies in the `i32` range, and parsing consumes at least one character |
| Numerals.ParseUnsignedNumeral | src/weather_data.rs:82 | a numeral followed by a non-digit parses to its value with that rest, or fails when the value exceeds the bound |
| Numerals.ParseUnsignedShape | src/weather_data.rs:82 | an accepted `u32` read a non-empty digit run whose value it returns, and the text left over does not start with a digit |
| Numerals.ParseI32Shape | src/weather_data.rs:82 | an accepted `i32` read an optional '+' or '-' and a non-empty digit run; the value is the run's value, negated after '-', and the text left over does not start with a digit |
| Numerals.ParseUsize | src/main.rs:61-67 | an accepted limit is at most `usize::MAX` and comes from non-empty text that does not start with '-' |
| Numerals.ParseUsizeNumeral | src/main.rs:61-67 | a numeral, bare or with '+', with any number of leading zeros, parses to its value exactly when the value fits in 64 bits, and fails otherwise |
| Numerals.ParseUsizeDigits | src/main.rs:61-67 | a bare or '+'-signed digit string parses to its value when the value fits, and otherwise fails |
| Numerals.ParseUsizeRejects | src/main.rs:61-67 | a leading minus, a lone '+', a leading character that is neither '+' nor a digit, or any later non-digit makes the limit invalid |
| Numerals.LeadingZeros | src/main.rs:61-67 | leading zeros do not change a numeral's value |
| Calendar.DaysInMonth | src/weather_data.rs:83 | every month has 28 to 31 days, and February has 29 exactly in a Gregorian leap year |
| Calendar.NotAfterIsTotalOrder | src/weather_data.rs:169 | the date key used by the sort is a total order: reflexive, total, antisymmetric and transitive |
| DateParser.ParseDate | src/weather_data.rs:80-85 | an accepted date is a valid calendar date, and the unconsumed text is a strict suffix of the input |
| DateParser.ParseI32Numeral | src/weather_data.rs:82 | a signed year numeral parses to its signed value. A negative value down to -2147483648 and a positive value up to 2147483647 are accepted; anything larger fails |
| DateParser.ParseDateBadYear | src/weather_data.rs:82 | when the year numeral fails, the date fails |
| DateParser.ParseDateBadMonthOrDay | src/weather_data.rs:82-83 | when the month or day numeral overflows `u32`, the date fails |
| DateParser.ParseDateSteps | src/weather_data.rs:80-85 | the date is the three numerals joined by single dashes and is accepted exactly when they form a calendar date |
| DateParser.ParseDateNumerals | src/weather_data.rs:80-85 | "Y-M-D" followed by any text not starting with a digit parses to Date(Y, M, D) with that text left over when the triple is a valid date, and fails otherwise; the year may be signed |
| DateParser.ParseDateAccepted | src/weather_data.rs:80-85 | an accepted date went through every step: a year, a dash, a month, a dash and a day, and the date is made of those three numbers |
| DateParser.ParseDateShape | src/weather_data.rs:80-85 | the converse of ParseDateNumerals: every accepted input is an optional sign, three digit runs joined by single dashes, and the returned text, which does not start with a digit; the date is the runs' values |
| DateParser.CalendarExamples | src/weather_data.rs:192-198 | 2034-12-23 and leap days in 2024 and 2000 are valid; 1900-02-29, 2023-02-29, month 13, month 0, day 0, Feb 30 and Apr 31 are not |
| WeatherKinds.ParseKind | src/weather_data.rs:38-46 | a converted kind's variant name equals the text up to ASCII case |
| WeatherKinds.EqIgnoreAsciiCaseLowered | src/weather_data.rs:39 | two texts are equal ignoring ASCII case exactly when their ASCII-lowered forms are equal |
| WeatherKinds.NamesDistinguishable | src/weather_data.rs:40-46 | no text matches two different kinds' names ignoring case |
| WeatherKinds.ParseKindIff | src/weather_data.rs:38-46 | the conversion yields kind k exactly when the text is k's name ignoring ASCII case, in both directions |
| WeatherKinds.ParseKindSpellings | src/weather_data.rs:38-46 | "rain", "SUN" and "dRiZzLe" convert; "sunny" and the empty text do not |
| TextLines.LineEnd | src/weather_data.rs:124 | a line ends at the first newline or at the end of the text |
| TextLines.Lines | src/weather_data.rs:124 | no line contains a newline, and the text is empty exactly when there are no lines |
| TextLines.LinesCons | src/weather_data.rs:124 | a line without newline or trailing carriage return, then a newline, splits off as the first line |
| TextLines.CrLf | src/weather_data.rs:124 | a line without newline followed by "\r\n" splits off as the first line with the carriage return removed |
| TextLines.LinesOfUnlines | src/weather_data.rs:124 | splitting newline-terminated plain lines gives the same lines back |
| TextLines.LinesUnterminated | src/weather_data.rs:124 | a non-empty last line without a newline after it still comes back as a line of its own |
| TextLines.LinesOfJoined | src/weather_data.rs:124 | a file of plain lines splits back into its lines whether or not the last one ends in a newline, except that an unterminated empty last line yields no line |
| WeatherRows.ParseRow | src/weather_data.rs:89-110 | a parsed row always has a valid calendar date |
| WeatherRows.FloatThenCommaReads | src/weather_data.rs:93-96 | a float field followed by a comma yields the float and the text after the comma |
| WeatherRows.ParseRowFieldOrder | src/weather_data.rs:89-110 | for a row of date and four comma-terminated floats, the second float is temp_max and the third temp_min. The rest of the line must, in full, name a kind; otherwise the row fails at the weather field |
| WeatherRows.ParseRowBadDate | src/weather_data.rs:92 | a row whose date does not parse fails at the date field, whatever follows |
| WeatherFile.NonEmpty | src/weather_data.rs:126 | the filter keeps only non-empty lines and never lengthens the list |
| WeatherFile.NonEmptyKeepsExactly | src/weather_data.rs:126 | a line is kept exactly when it is in the list and not empty |
| WeatherFile.ParseContents | src/weather_data.rs:120-137 | as written: one result per non-empty line after the header. Result i reports data line i under number i + 2: its entry when the line parses, and otherwise the number, the line's text and the field where parsing stopped |
| WeatherFile.Numbered | src/weather_data.rs:123-128 | the non-empty lines in order, each paired with its position in the unfiltered list, and that position holds the line |
| WeatherFile.NumberedDataLines | src/weather_data.rs:123-128 | each data line is paired with a 1-based line number of the file, and the file has that line at that number |
| WeatherFile.NumberedIncreasing | src/weather_data.rs:126-128 | the positions assigned to the kept lines strictly increase |
| WeatherFile.NumberedCovers | src/weather_data.rs:126-128 | every non-empty line receives its own position |
| WeatherFile.FileLineNumbers | src/weather_data.rs:123-128 | the data lines' numbers increase down the file, and every non-empty line after the header is numbered with its own 1-based line number |
| WeatherFile.ParseContentsFileNumbered | src/weather_data.rs:120-137 | corrected numbering: result i reports data line i, as its entry or as its text and failing field, under the file line number that NumberedDataLines gives it; a failure's number names the file line holding the failing text |
| WeatherFile.RowOutcomeNumberFree | src/weather_data.rs:129-135 | whether a row parses, and to what entry or field, does not depend on its line number |
| WeatherFile.NumberingOnlyDiffers | src/weather_data.rs:120-137 | the as-written and corrected pipelines agree row by row on everything except the reported line numbers |
| WeatherFile.ParseContentsOfFile | src/weather_data.rs:217-272 | for a header then non-blank rows, whether or not the last row ends in a newline as in the tests, the data lines are the rows, and row i's result is its parse reported as line i + 2, which is its line in the file |
| WeatherFile.NonEmptyOfNonEmpty | src/weather_data.rs:126 | the filter keeps a list of non-empty lines unchanged |
| WeatherFile.NonEmptyOfBlank | src/weather_data.rs:126 | the filter drops every line of an all-blank list |
| WeatherFile.NonEmptyAppend | src/weather_data.rs:126 | the filter works line by line: filtering two lists joined is joining their filtered lists |
| WeatherFile.DataLinesSkipBlanks | src/weather_data.rs:123-126 | the data lines of a header followed by rows are those rows with blanks removed, whether or not the last row ends in a newline |
| WeatherFile.BlankLineShiftsReportedNumber | src/weather_data.rs:126-132 | a bad row on line 3 after a blank line 2 is reported as written as line 2, which holds the blank line; the corrected pipeline reports line 3 |
| WeatherFile.Successes | src/weather_data.rs:148-160 | keeps one entry per parsed row, so its length plus the error count is the number of rows; with no failures it has every row's entry in order |
| WeatherFile.ErrorCount | src/weather_data.rs:144-158 | the error count is zero exactly when every row parsed, and never exceeds the number of rows |
| WeatherFile.ErrorCountIsFailedRows | src/weather_data.rs:144-158 | the error count equals the number of positions whose row failed to parse, one per `Err` the filter_map counts |
| WeatherFile.ErrorCountAppend | src/weather_data.rs:148-158 | counting failures over two stretches of rows adds up, as the running counter does |
| WeatherFile.SameOutcomesSameEntries | src/weather_data.rs:148-160 | pipelines that differ only in line numbers give the same entries and the same error count |
| WeatherFile.LoadRows | src/weather_data.rs:142-186 | loading fails exactly when some row failed, reporting the error count, which is positive. Otherwise it yields the rows' entries, one per row, as a date-sorted permutation |
| WeatherFile.Load | src/weather_data.rs:142-186 | loading a file text fails exactly when some data line fails to parse, with a count equal to the number of data lines that fail to parse, which is positive and at most the number of data lines; otherwise it gives one entry per data line, sorted by date |
| WeatherFile.LoadHoldsEveryRow | src/weather_data.rs:148-160 | when loading succeeds, every data line parsed and its entry is in the dataset |
| WeatherFile.LoadIgnoresNumbering | src/weather_data.rs:142-160 | loading with the as-written numbering gives the same dataset or the same error count as loading with the corrected file numbering |
| WeatherFile.LoadEmptyFile | src/weather_data.rs:166-184 | an empty file, or a header with only blank lines, loads as an empty dataset and not as an error |
| WeatherFile.LoadKeepsFileOrderPerDate | src/weather_data.rs:169 | in the loaded dataset, the entries for any date are the parsed rows with that date, in file order |
| DateSort.InsertByDate | src/weather_data.rs:169 | insertion adds exactly the one entry, and the head is either the new entry or the old head |
| DateSort.InsertKeepsSorted | src/weather_data.rs:169 | inserting into a date-sorted list keeps it sorted |
| DateSort.SortByDate | src/weather_data.rs:169 | the sort yields a date-sorted permutation of its input |
| DateSort.InsertKeepsDateOrder | src/weather_data.rs:169 | an inserted entry goes ahead of every entry with its own date and leaves other dates' order alone |
| DateSort.SortIsStable | src/weather_data.rs:169 | the sort is stable: for every date, the entries with that date appear in input order |
| IndexStore.LastWithDate | src/indexes.rs:39-45 | the collected map's entry for a date: absent exactly when no entry has the date, and otherwise an entry with that date after which none has it |
| IndexStore.OfKind | src/indexes.rs:50-58 | a kind's list holds only entries of that kind from the dataset and includes each one; an absent kind gives nothing |
| IndexStore.BuildDateIndex | src/indexes.rs:39-45 | the date map sends each date to the last entry with that date, and its keys are exactly the dataset's dates |
| IndexStore.BuildKindIndex | src/indexes.rs:50-58 | the kind map lists under each present kind its entries in dataset order, and has no empty lists |
| IndexStore.DateIndexAppend | src/indexes.rs:39-45 | inserting the next entry under its date keeps a correct date index of the longer list, the later entry replacing the earlier |
| IndexStore.KindIndexAppend | src/indexes.rs:50-58 | appending the next entry to its kind's list keeps a correct kind index of the longer list |
| IndexStore.PopulateIndexes | src/indexes.rs:35-65 | population succeeds exactly when both cells are unset and leaves the dataset as it was with both indexes consistent; a repeat call fails with AlreadyPopulated |
| IndexStore.DateIndexFindsEveryEntry | src/indexes.rs:39-45 | with unique dates the date index returns every entry under its own date |
| QueryPlanner.Take | src/indexes.rs:114-118 | the limit keeps a prefix of length min(limit, length); no limit keeps everything |
| QueryPlanner.HandleDateQuery | src/indexes.rs:73-92 | fails only when the date index is unset. It answers at most one entry, dated as asked and of the asked kind if any: the dataset's last entry for that date, dropped when its kind differs |
| QueryPlanner.HandleKindQuery | src/indexes.rs:101-119 | fails only when the kind index is unset; answers the dataset's entries of that kind in order, cut to the limit |
| QueryPlanner.FullScan | src/indexes.rs:123-129 | answers the dataset's first min(limit, length) entries, or all of them |
| QueryPlanner.HandleQuery | src/indexes.rs:133-155 | the plan's priority: a zero limit answers nothing; a date goes to the date index, whatever the kind; a kind alone goes to the kind index; otherwise a scan. It fails exactly when the chosen path's index is unset |
| QueryPlanner.Selected | src/indexes.rs:131-132 | the reference answer holds only entries meeting every constraint |
| QueryPlanner.SelectedByKind | src/indexes.rs:145-150 | for a kind-only query the reference filter is the kind index's list |
| QueryPlanner.SelectedAll | src/indexes.rs:152-153 | for an unconstrained query the reference filter is the whole dataset |
| QueryPlanner.SelectedAbsentDate | src/indexes.rs:140-143 | a date no entry has selects nothing |
| QueryPlanner.SelectedByDate | src/indexes.rs:140-143 | with unique dates, a date query's reference answer is the date index's entry, filtered by kind |
| QueryPlanner.QueryAnswersReference | src/indexes.rs:131-155 | with indexes built, every query with limit 0 or without a date, and every date query over unique dates, is answered with exactly the matching entries in dataset order, cut to the limit; the answer has min(limit, matches) entries |
| QueryPlanner.UnknownDateAnswersNothing | src/indexes.rs:77-91 | a date not in the dataset is answered with nothing, not an error |
| QueryPlanner.AbsentKindAnswersNothing | src/indexes.rs:105-111 | a kind not in the dataset is answered with nothing, not an error |
| QueryPlanner.TwoDayExamples | src/indexes.rs:133-155 | the answers over a sunny 2012-06-03 and a rainy 2012-06-04, including: a date query finds its day, a mismatched kind drops it, an unknown date finds nothing, a kind query finds its days, limits 1 and 0 cut the answer, and no constraints answer both days |
| QueryRequests.LimitParam | src/main.rs:61-70 | an absent limit is no limit; a present one is accepted exactly when it parses as `usize`, and then the limit is the parsed number; otherwise it is rejected with its text |
| QueryRequests.DateParam | src/main.rs:72-85 | an absent date is no date; a present one is accepted exactly when it begins with a valid date, and then the date is the one parsed; otherwise it is rejected with its text |
| QueryRequests.WeatherParam | src/main.rs:87-102 | an absent kind is no kind; a present one is accepted exactly when it names a kind ignoring case, and then the kind is the one converted; otherwise it is rejected with its text |
| QueryRequests.ToQuery | src/main.rs:54-110 | succeeds exactly when every present parameter is valid. A failure names the first invalid parameter, in the order limit, date, weather, and carries its text. A success has a parameter set exactly when the request had it, and each set parameter is the value its parser produced: the `usize` limit, the parsed date and the converted kind |
| QueryRequests.EmptyRequest | src/main.rs:54-110 | a request without parameters is the unconstrained query |
| QueryRequests.LimitNumeral | src/main.rs:61-67 | a numeral limit, bare or with '+' and leading zeros, is that number when it fits in 64 bits, and an invalid limit otherwise |
| QueryRequests.NegativeLimit | src/main.rs:61-67 | a limit starting with '-' is rejected as an invalid limit |
| QueryRequests.DateTrailingTextIgnored | src/main.rs:72-82 | "Y-M-D", with an optional sign on the year, followed by text not starting with a digit, gives the date (Y, M, D) with the trailing text ignored when the triple is a valid date, and an invalid date carrying the text otherwise |
| QueryRequests.FullRequest | src/main.rs:54-110 | a request with a valid limit, a valid date and a kind name in any case gives the query holding all three parsed values |
| QueryRequests.LimitOfNumeral | src/main.rs:61-67 | the decimal rendering of any 64-bit number is accepted as that limit |
| QueryRequests.DateOfNumerals | src/main.rs:72-82 | "Y-M-D" naming a valid date is accepted as that date |
| QueryRequests.WeatherAnyCase | src/main.rs:87-99 | a weather parameter naming a kind in any ASCII case yields that kind |
| Startup.LastWithDateIsLastOfWithDate | src/indexes.rs:39-45 | the entry kept for a date is the last of the entries with that date |
| Startup.DateIndexHoldsLastRowOfFile | src/indexes.rs:39-46 | once the parsed rows have loaded and the indexes are built, each date maps to the last parsed row, in file order, that has that date |
| Startup.SameDateOrderSameLast | src/indexes.rs:39-45 | lists holding the same entries for a date, in the same order, keep the same last entry for it |
| Startup.Start | src/indexes.rs:35-65 | start-up succeeds exactly when the file loads, failing otherwise with the load's error; on success the dataset is the loaded one and both indexes are built and consistent with it |

## Left out

- The HTTP server, routing, the welcome page, logging, and JSON serialisation are left out. None of them computes anything the model states.
- Float parsing is not modelled. nom's `float` is a parameter (`FloatReader`), and measurements are kept as opaque `f32` bit patterns, so no floating-point arithmetic appears.
- `OnceLock` is not modelled as a concurrency primitive. Lazy initialisation and concurrent first calls are left out; the cells are two optional fields of a state value.
- Panics are not modelled as process aborts. A load with bad rows, a repeated population and a query before population each become an error value. The model's callers see these instead of a crash.
- Error message wording is left out: the load error keeps only the count, and query errors keep the offending text. nom's error values are replaced by the field at which a row failed.
- The embedded data file is not modelled; the load takes the file text as a parameter.
- Numerals.ParseUsize: assumes a 64-bit `usize`. On another width, only the bound `UsizeMax` changes.
- The calendar's year range, -262143..262142, is that of current `chrono` releases, because the crate version is not pinned in the source files.
- TextLines.Lines: follows current `str::lines`, which strips a '\r' only before a '\n'. A lone trailing '\r' is kept.
- Numerals.ParseI32: its contract states the range and progress only. The exact value read is stated by DateParser.ParseI32Numeral, and the shape of accepted text by Numerals.ParseI32Shape.
- DateParser.ParseDate: its contract states validity and progress only. The exact result on numerals is stated by DateParser.ParseDateNumerals, and its converse by DateParser.ParseDateShape.
- WeatherFile.NonEmpty: its contract states what is kept. That every non-empty line is kept is stated by WeatherFile.NonEmptyKeepsExactly.
- WeatherRows.ParseRow: its contract states the date's validity only; the field mapping is stated by WeatherRows.ParseRowFieldOrder and WeatherRows.ParseRowBadDate.
- QueryPlanner.QueryAnswersReference: assumes unique dates for date queries with a non-zero limit. With repeated dates the date index answers only the last entry for a date, as stated by QueryPlanner.HandleQuery and Startup.DateIndexHoldsLastRowOfFile.

## Findings

| source | as written | input that shows it | evidently intended | confidence | as-written member | corrected member |
|---|---|---|---|---|---|---|
| src/weather_data.rs:126-132 | `enumerate` runs after the blank-line filter, so `line_num = index + 2` counts only non-blank data lines | a header, a blank line 2, and an unparsable row on line 3: the error names line 2, which is the blank line | the error names the row's own file line (3), as the test at lines 247-259 assumes for a file without blank lines | medium, not executed | WeatherFile.ParseContents, WeatherFile.BlankLineShiftsReportedNumber | WeatherFile.ParseContentsFileNumbered |

The load step, `WeatherFile.Load`, follows the code and runs the as-written pipeline. `WeatherFile.LoadIgnoresNumbering` proves that it loads exactly what the corrected pipeline loads: the same dataset, or the same error count. Only the reported line numbers, which the service logs, differ.

=== FILE: calendar.dfy ===
/** Calendar dates as `chrono::NaiveDate` accepts them: the proleptic
    Gregorian calendar over a bounded range of years. */
module Calendar {

  /** A year-month-day triple; only triples satisfying `IsValidDate` denote
      a `NaiveDate`. */
  datatype Date = Date(year: int, month: int, day: int)

  /** The year range of `NaiveDate` in current chrono releases */
  const MinYear: int := -262143
  const MaxYear: int := 262142

  predicate IsLeapYear(y: int) {
    y % 4 == 0 && (y % 100 != 0 || y % 400 == 0)
  }

  function DaysInMonth(y: int, m: int): (n: int)
    requires 1 <= m <= 12
    ensures 28 <= n <= 31
    ensures m == 2 ==> (n == 29 <==> IsLeapYear(y))
  {
    if m == 2 then (if IsLeapYear(y) then 29 else 28)
    else if m == 4 || m == 6 || m == 9 || m == 11 then 30
    else 31
  }

  /** `NaiveDate::from_ymd_opt(y, m, d)` is `Some` exactly for these triples */
  predicate IsValidYmd(y: int, m: int, d: int) {
    MinYear <= y <= MaxYear && 1 <= m <= 12 && 1 <= d <= DaysInMonth(y, m)
  }

  predicate IsValidDate(date: Date) {
    IsValidYmd(date.year, date.month, date.day)
  }

  /** Chronological order, which on valid dates is the lexicographic order of
      the triples (the order `NaiveDate` derives). */
  predicate Before(a: Date, b: Date) {
    a.year < b.year
    || (a.year == b.year && a.month < b.month)
    || (a.year == b.year && a.month == b.month && a.day < b.day)
  }

  predicate NotAfter(a: Date, b: Date) {
    !Before(b, a)
  }

  lemma NotAfterIsTotalOrder(a: Date, b: Date, c: Date)
    ensures NotAfter(a, a)
    ensures NotAfter(a, b) || NotAfter(b, a)
    ensures NotAfter(a, b) && NotAfter(b, a) ==> a == b
    ensures NotAfter(a, b) && NotAfter(b, c) ==> NotAfter(a, c)
  {
  }
}

=== FILE: date_parser.dfy ===
/** `parse_date`: a year, a dash, a month, a dash and a day, mapped through
    `NaiveDate::from_ymd_opt`. The input need not be consumed entirely: what
    follows the day is returned. */
module DateParser {
  import opened Wrappers
  import opened Numerals
  import opened Calendar

  function ParseDate(s: string): (r: Option<(Date, string)>)
    ensures r.Some? ==> IsValidDate(r.value.0)
    ensures r.Some? ==> ProperSuffix(r.value.1, s)
  {
    match ParseI32(s)
    case None => None
    case Some((y, r1)) =>
      if r1 == [] || r1[0] != '-' then None
      else match ParseUnsigned(r1[1..], U32Max)
      case None => None
      case Some((m, r2)) =>
        if r2 == [] || r2[0] != '-' then None
        else match ParseUnsigned(r2[1..], U32Max)
        case None => None
        case Some((d, r3)) =>
          DashThenNumeral(s, r1, r2);
          DashThenNumeral(s, r2, r3);
          if IsValidYmd(y, m, d) then Some((Date(y, m, d), r3)) else None
  }

  /** What follows a dash and an unsigned numeral is still a proper suffix of
      the text the date came from */
  lemma DashThenNumeral(s: string, t: string, u: string)
    requires ProperSuffix(t, s)
    requires t != [] && ParseUnsigned(t[1..], U32Max).Some? && ParseUnsigned(t[1..], U32Max).value.1 == u
    ensures ProperSuffix(u, s)
  {
    var n := DigitRun(t[1..]);
    assert u == t[1..][n..];
    assert u == t[n + 1..];
  }

  /** The year numeral with its optional sign */
  lemma ParseI32Numeral(sign: string, ds: string, rest: string)
    requires sign == "" || sign == "+" || sign == "-"
    requires ds != [] && AllDigits(ds)
    requires rest == [] || !IsDigit(rest[0])
    ensures var v: int := Value(ds);
      ParseI32(sign + ds + rest) ==
        if sign == "-" then (if v <= I32MinMagnitude then Some((-v, rest)) else None)
        else (if v <= I32Max then Some((v, rest)) else None)
  {
    var s := sign + ds + rest;
    if sign == "" {
      assert s == ds + rest;
      assert s[0] == ds[0];
    } else {
      assert s[0] == sign[0];
      assert s[1..] == ds + rest;
    }
    ParseUnsignedNumeral(ds, rest, if sign == "-" then I32MinMagnitude else I32Max);
  }

  /** `parse_date` fails when the year numeral does */
  lemma ParseDateBadYear(s: string)
    requires ParseI32(s) == None
    ensures ParseDate(s) == None
  {
  }

  /** `parse_date` fails when the month or the day numeral overflows */
  lemma ParseDateBadMonthOrDay(s: string, y: int, ms: string, ds: string)
    requires ParseI32(s) == Some((y, "-" + ms))
    requires ParseUnsigned(ms, U32Max) == None
      || (ParseUnsigned(ms, U32Max).Some? && ParseUnsigned(ms, U32Max).value.1 == "-" + ds
          && ParseUnsigned(ds, U32Max) == None)
    ensures ParseDate(s) == None
  {
    assert ("-" + ms)[1..] == ms;
    assert ("-" + ds)[1..] == ds;
  }

  /** `parse_date` in terms of its three numeral parsers, one dash after
      each of the first two */
  lemma ParseDateSteps(s: string, y: int, ms: string, m: nat, ds: string, d: nat, rest: string)
    requires ParseI32(s) == Some((y, "-" + ms))
    requires ParseUnsigned(ms, U32Max) == Some((m, "-" + ds))
    requires ParseUnsigned(ds, U32Max) == Some((d, rest))
    ensures ParseDate(s) == if IsValidYmd(y, m, d) then Some((Date(y, m, d), rest)) else None
  {
    assert ("-" + ms)[1..] == ms;
    assert ("-" + ds)[1..] == ds;
  }

  /** `parse_date` on "Y-M-D" followed by anything that does not continue the
      day: the date (Y, M, D) when it is a valid calendar date, and a failure
      otherwise. Numerals may carry leading zeros; the year may be signed. */
  lemma {:induction false} ParseDateNumerals(sign: string, ys: string, ms: string, ds: string, rest: string)
    requires sign == "" || sign == "+" || sign == "-"
    requires ys != [] && AllDigits(ys)
    requires ms != [] && AllDigits(ms)
    requires ds != [] && AllDigits(ds)
    requires rest == [] || !IsDigit(rest[0])
    ensures var y := if sign == "-" then -(Value(ys) as int) else Value(ys);
      ParseDate(sign + ys + "-" + ms + "-" + ds + rest) ==
        if IsValidYmd(y, Value(ms), Value(ds)) then Some((Date(y, Value(ms), Value(ds)), rest)) else None
  {
    var y: int := if sign == "-" then -(Value(ys) as int) else Value(ys);
    var m, d := Value(ms), Value(ds);
    var t2 := "-" + (ds + rest);
    var t1 := "-" + (ms + t2);
    assert t2[1..] == ds + rest;
    assert t1[1..] == ms + t2;
    var s := sign + ys + "-" + ms + "-" + ds + rest;
    JoinDashes(sign + ys + t1, sign, ys, t1, ms, t2, ds, rest);
    ParseI32Numeral(sign, ys, t1);
    ParseUnsignedNumeral(ms, t2, U32Max);
    ParseUnsignedNumeral(ds, rest, U32Max);
    if ParseI32(s).None? {
      ParseDateBadYear(s);
    } else if m > U32Max || d > U32Max {
      ParseDateBadMonthOrDay(s, y, ms + t2, ds + rest);
    } else {
      ParseDateSteps(s, y, ms + t2, m, ds + rest, d, rest);
    }
  }

  /** An accepted date went through each step of the parser: the year, a
      dash, the month, a dash, the day */
  lemma ParseDateAccepted(s: string)
    requires ParseDate(s).Some?
    ensures ParseI32(s).Some?
    ensures var r1 := ParseI32(s).value.1;
      r1 != [] && r1[0] == '-' && ParseUnsigned(r1[1..], U32Max).Some?
      && var r2 := ParseUnsigned(r1[1..], U32Max).value.1;
      r2 != [] && r2[0] == '-' && ParseUnsigned(r2[1..], U32Max).Some?
      && ParseDate(s).value == (Date(ParseI32(s).value.0, ParseUnsigned(r1[1..], U32Max).value.0,
                                     ParseUnsigned(r2[1..], U32Max).value.0),
                                ParseUnsigned(r2[1..], U32Max).value.1)
  {
  }

  /** What an accepted date looks like: an optional sign, three digit runs
      joined by single dashes, and text that does not start with a digit; the
      date is the runs' values */
  lemma ParseDateShape(s: string) returns (sign: string, ys: string, ms: string, ds: string)
    requires ParseDate(s).Some?
    ensures sign == "" || sign == "+" || sign == "-"
    ensures ys != [] && AllDigits(ys) && ms != [] && AllDigits(ms) && ds != [] && AllDigits(ds)
    ensures s == sign + ys + "-" + ms + "-" + ds + ParseDate(s).value.1
    ensures ParseDate(s).value.1 == [] || !IsDigit(ParseDate(s).value.1[0])
    ensures ParseDate(s).value.0 == Date(if sign == "-" then -(Value(ys) as int) else Value(ys), Value(ms), Value(ds))
  {
    ParseDateAccepted(s);
    var r1 := ParseI32(s).value.1;
    sign, ys := ParseI32Shape(s);
    var r2 := ParseUnsigned(r1[1..], U32Max).value.1;
    ms := ParseUnsignedShape(r1[1..], U32Max);
    var r3 := ParseUnsigned(r2[1..], U32Max).value.1;
    ds := ParseUnsignedShape(r2[1..], U32Max);
    JoinDashes(s, sign, ys, r1, ms, r2, ds, r3);
  }

  /** Reassembling the text from the pieces the parser split it into */
  lemma JoinDashes(s: string, sign: string, ys: string, r1: string, ms: string, r2: string, ds: string, r3: string)
    requires s == sign + ys + r1
    requires r1 != [] && r1[0] == '-' && r1[1..] == ms + r2
    requires r2 != [] && r2[0] == '-' && r2[1..] == ds + r3
    ensures s == sign + ys + "-" + ms + "-" + ds + r3
  {
    var dash := "-";
    assert r2 == dash + (ds + r3) by {
      assert r2 == [r2[0]] + r2[1..];
    }
    assert r1 == dash + (ms + r2) by {
      assert r1 == [r1[0]] + r1[1..];
    }
    var p := sign + ys;
    calc {
      s;
      p + (dash + (ms + (dash + (ds + r3))));
      { Assoc(p, dash, ms + (dash + (ds + r3))); }
      (p + dash) + (ms + (dash + (ds + r3)));
      { Assoc(p + dash, ms, dash + (ds + r3)); }
      (p + dash + ms) + (dash + (ds + r3));
      { Assoc(p + dash + ms, dash, ds + r3); }
      (p + dash + ms + dash) + (ds + r3);
      { Assoc(p + dash + ms + dash, ds, r3); }
      p + dash + ms + dash + ds + r3;
    }
  }

  lemma Assoc(a: string, b: string, c: string)
    ensures a + (b + c) == a + b + c
  {
  }

  /** The calendar checks `parse_date` applies: a leap day is accepted only
      in a leap year, and month 13 and February 30th never. */
  lemma CalendarExamples()
    ensures IsValidYmd(2034, 12, 23) && IsValidYmd(2024, 2, 29) && IsValidYmd(2000, 2, 29)
    ensures !IsValidYmd(2023, 2, 29) && !IsValidYmd(1900, 2, 29)
    ensures !IsValidYmd(2023, 13, 1) && !IsValidYmd(2023, 2, 30) && !IsValidYmd(2023, 4, 31)
    ensures !IsValidYmd(2023, 0, 1) && !IsValidYmd(2023, 1, 0)
  {
  }
}

=== FILE: date_sort.dfy ===
/** `sort_by_key(|e| e.date)`: a stable sort of entries by date. */
module DateSort {
  import opened Calendar
  import opened WeatherRows

  predicate SortedByDate(s: seq<Entry>) {
    forall i, j :: 0 <= i < j < |s| ==> NotAfter(s[i].date, s[j].date)
  }

  /** The entries of `s` dated `d`, in their order in `s` */
  function WithDate(s: seq<Entry>, d: Date): seq<Entry> {
    if s == [] then []
    else (if s[0].date == d then [s[0]] else []) + WithDate(s[1..], d)
  }

  /** Insert `x` before the first entry not dated before it, so that `x`
      stays ahead of entries with its own date */
  function InsertByDate(x: Entry, s: seq<Entry>): (r: seq<Entry>)
    ensures multiset(r) == multiset(s) + multiset{x}
    ensures |r| == |s| + 1
    ensures r[0] == x || (s != [] && r[0] == s[0])
  {
    if s == [] || NotAfter(x.date, s[0].date) then [x] + s
    else
      assert s == [s[0]] + s[1..];
      [s[0]] + InsertByDate(x, s[1..])
  }

  lemma {:induction false} InsertKeepsSorted(x: Entry, s: seq<Entry>)
    requires SortedByDate(s)
    ensures SortedByDate(InsertByDate(x, s))
  {
    if s == [] || NotAfter(x.date, s[0].date) {
      forall j | 0 < j < |s| + 1
        ensures NotAfter(x.date, ([x] + s)[j].date)
      {
        if s != [] { NotAfterIsTotalOrder(x.date, s[0].date, s[j - 1].date); }
      }
    } else {
      var tail := InsertByDate(x, s[1..]);
      InsertKeepsSorted(x, s[1..]);
      assert NotAfter(s[0].date, tail[0].date);
      forall j | 0 <= j < |tail|
        ensures NotAfter(s[0].date, tail[j].date)
      {
        NotAfterIsTotalOrder(s[0].date, tail[0].date, tail[j].date);
      }
    }
  }

  function SortByDate(s: seq<Entry>): (r: seq<Entry>)
    ensures SortedByDate(r)
    ensures multiset(r) == multiset(s)
  {
    if s == [] then []
    else
      assert s == [s[0]] + s[1..];
      InsertKeepsSorted(s[0], SortByDate(s[1..]));
      InsertByDate(s[0], SortByDate(s[1..]))
  }

  lemma {:induction false} InsertKeepsDateOrder(x: Entry, s: seq<Entry>, d: Date)
    ensures WithDate(InsertByDate(x, s), d) == (if x.date == d then [x] else []) + WithDate(s, d)
    decreases s
  {
    if s == [] || NotAfter(x.date, s[0].date) {
      assert ([x] + s)[1..] == s;
    } else {
      InsertKeepsDateOrder(x, s[1..], d);
      assert ([s[0]] + InsertByDate(x, s[1..]))[1..] == InsertByDate(x, s[1..]);
    }
  }

  /** The sort is stable: entries sharing a date keep their relative order */
  lemma {:induction false} SortIsStable(s: seq<Entry>, d: Date)
    ensures WithDate(SortByDate(s), d) == WithDate(s, d)
  {
    if s != [] {
      SortIsStable(s[1..], d);
      InsertKeepsDateOrder(s[0], SortByDate(s[1..]), d);
    }
  }
}

=== FILE: index_store.dfy ===
/** `populate_indexes` and the state it writes: the date index (date to
    entry) and the kind index (kind to entries in dataset order), each held
    in a write-once cell beside the loaded dataset. */
module IndexStore {
  import opened Wrappers
  import opened Calendar
  import opened WeatherKinds
  import opened WeatherRows

  type DateIndex = map<Date, Entry>
  type KindIndex = map<Kind, seq<Entry>>

  /** The dataset and the two write-once index cells; `None` is a cell that
      has not been set. */
  datatype State = State(entries: seq<Entry>, byDate: Option<DateIndex>, byKind: Option<KindIndex>)

  /** The programming errors the cells report */
  datatype IndexError = AlreadyPopulated | NotPopulated

  /** The state once the dataset is loaded and before any index is built */
  function Initial(entries: seq<Entry>): (st: State)
    ensures st.entries == entries && !st.byDate.Some? && !st.byKind.Some?
    ensures Consistent(st)
  {
    State(entries, None, None)
  }

  /** The last entry of `s` dated `d`, if any */
  function LastWithDate(s: seq<Entry>, d: Date): (r: Option<Entry>)
    ensures r.None? <==> forall i :: 0 <= i < |s| ==> s[i].date != d
    ensures r.Some? ==> r.value.date == d && exists i :: (0 <= i < |s| && s[i] == r.value
      && forall j :: i < j < |s| ==> s[j].date != d)
  {
    if s == [] then None
    else if s[|s| - 1].date == d then Some(s[|s| - 1])
    else
      var r := LastWithDate(s[..|s| - 1], d);
      assert forall i :: 0 <= i < |s| - 1 ==> s[..|s| - 1][i] == s[i];
      r
  }

  /** The entries of `s` of kind `k`, in their order in `s` */
  function OfKind(s: seq<Entry>, k: Kind): (r: seq<Entry>)
    ensures |r| <= |s|
    ensures forall j :: 0 <= j < |r| ==> r[j].weather == k && r[j] in s
    ensures forall i :: 0 <= i < |s| && s[i].weather == k ==> s[i] in r
    ensures (forall i :: 0 <= i < |s| ==> s[i].weather != k) ==> r == []
  {
    if s == [] then []
    else
      var init := OfKind(s[..|s| - 1], k);
      assert forall i :: 0 <= i < |s| - 1 ==> s[..|s| - 1][i] == s[i];
      init + (if s[|s| - 1].weather == k then [s[|s| - 1]] else [])
  }

  function LookupDate(m: DateIndex, d: Date): Option<Entry> {
    if d in m then Some(m[d]) else None
  }

  /** A kind missing from the index reads as no entries */
  function LookupKind(m: KindIndex, k: Kind): seq<Entry> {
    if k in m then m[k] else []
  }

  /** `m` maps each date of `s` to the last entry with that date */
  ghost predicate IsDateIndexOf(s: seq<Entry>, m: DateIndex) {
    forall d :: LookupDate(m, d) == LastWithDate(s, d)
  }

  /** `m` lists, under each kind present in `s`, the entries of that kind in
      dataset order, and has no key for an absent kind */
  ghost predicate IsKindIndexOf(s: seq<Entry>, m: KindIndex) {
    (forall k :: LookupKind(m, k) == OfKind(s, k))
    && (forall k :: k in m ==> m[k] != [])
  }

  /** Every cell that is set holds the index of the dataset. Only
      `PopulateIndexes` sets cells, so every state the program reaches is
      consistent. */
  ghost predicate Consistent(st: State) {
    && (st.byDate.Some? ==> IsDateIndexOf(st.entries, st.byDate.value))
    && (st.byKind.Some? ==> IsKindIndexOf(st.entries, st.byKind.value))
  }

  ghost predicate Populated(st: State) {
    Consistent(st) && st.byDate.Some? && st.byKind.Some?
  }

  /** Insert every entry under its date, in dataset order */
  method BuildDateIndex(entries: seq<Entry>) returns (m: DateIndex)
    ensures IsDateIndexOf(entries, m)
    ensures m.Keys == set i | 0 <= i < |entries| :: entries[i].date
  {
    m := map[];
    var i := 0;
    while i < |entries|
      invariant 0 <= i <= |entries|
      invariant IsDateIndexOf(entries[..i], m)
      invariant m.Keys == set j | 0 <= j < i :: entries[j].date
    {
      var e := entries[i];
      assert entries[..i + 1] == entries[..i] + [e];
      DateIndexAppend(entries[..i], m, e);
      m := m[e.date := e];
      i := i + 1;
    }
    assert entries[..i] == entries;
  }

  /** Append every entry to the list of its kind, in dataset order */
  method BuildKindIndex(entries: seq<Entry>) returns (m: KindIndex)
    ensures IsKindIndexOf(entries, m)
  {
    m := map[];
    var i := 0;
    while i < |entries|
      invariant 0 <= i <= |entries|
      invariant IsKindIndexOf(entries[..i], m)
    {
      var e := entries[i];
      assert entries[..i + 1] == entries[..i] + [e];
      KindIndexAppend(entries[..i], m, e);
      m := m[e.weather := LookupKind(m, e.weather) + [e]];
      i := i + 1;
    }
    assert entries[..i] == entries;
  }

  /** Inserting the next entry under its date keeps the date index, a later
      entry replacing an earlier one */
  lemma DateIndexAppend(s: seq<Entry>, m: DateIndex, e: Entry)
    requires IsDateIndexOf(s, m)
    ensures IsDateIndexOf(s + [e], m[e.date := e])
  {
    var s' := s + [e];
    assert s'[..|s'| - 1] == s;
    forall d
      ensures LookupDate(m[e.date := e], d) == LastWithDate(s', d)
    {
      assert LookupDate(m, d) == LastWithDate(s, d);
    }
  }

  /** Appending the next entry to the list of its kind keeps the kind index */
  lemma KindIndexAppend(s: seq<Entry>, m: KindIndex, e: Entry)
    requires IsKindIndexOf(s, m)
    ensures IsKindIndexOf(s + [e], m[e.weather := LookupKind(m, e.weather) + [e]])
  {
    var s' := s + [e];
    var m' := m[e.weather := LookupKind(m, e.weather) + [e]];
    assert s'[..|s'| - 1] == s;
    forall k
      ensures LookupKind(m', k) == OfKind(s', k)
    {
      assert LookupKind(m, k) == OfKind(s, k);
      assert OfKind(s', k) == OfKind(s, k) + (if e.weather == k then [e] else []);
    }
  }

  /** Build both indexes from the dataset. The date cell is set first, and
      setting a cell that is already set fails. */
  method PopulateIndexes(st: State) returns (r: Result<State, IndexError>)
    ensures r.Success? <==> st.byDate.None? && st.byKind.None?
    ensures r.Failure? ==> r.error == AlreadyPopulated
    ensures r.Success? ==> r.value.entries == st.entries && Populated(r.value)
  {
    if st.byDate.Some? {
      return Failure(AlreadyPopulated);
    }
    var byDate := BuildDateIndex(st.entries);
    if st.byKind.Some? {
      return Failure(AlreadyPopulated);
    }
    var byKind := BuildKindIndex(st.entries);
    return Success(State(st.entries, Some(byDate), Some(byKind)));
  }

  /** Dates are unique in `s` */
  predicate UniqueDates(s: seq<Entry>) {
    forall i, j :: 0 <= i < j < |s| ==> s[i].date != s[j].date
  }

  /** With unique dates, the date index holds each entry under its own date */
  lemma DateIndexFindsEveryEntry(st: State, i: nat)
    requires Populated(st) && UniqueDates(st.entries) && i < |st.entries|
    ensures LookupDate(st.byDate.value, st.entries[i].date) == Some(st.entries[i])
  {
    var d := st.entries[i].date;
    var r := LastWithDate(st.entries, d);
    assert r.Some?;
  }
}

=== FILE: numerals.dfy ===
/** Decimal numerals as the parsers of this system read them: nom's `u32` and
    `i32` digit loops, and Rust's `str::parse::<usize>`. */
module Numerals {
  import opened Wrappers

  const U32Max: nat := 0xFFFF_FFFF
  const I32Max: nat := 0x7FFF_FFFF
  /** Magnitude of `i32::MIN` */
  const I32MinMagnitude: nat := 0x8000_0000
  /** `usize::MAX` on a 64-bit target */
  const UsizeMax: nat := 0xFFFF_FFFF_FFFF_FFFF

  /** An ASCII decimal digit: the characters `char::to_digit(10)` accepts */
  predicate IsDigit(c: char) {
    '0' <= c <= '9'
  }

  function DigitValue(c: char): (v: nat)
    requires IsDigit(c)
    ensures v < 10
  {
    c as int - '0' as int
  }

  function DigitChar(v: nat): (c: char)
    requires v < 10
    ensures IsDigit(c) && DigitValue(c) == v
  {
    ('0' as int + v) as char
  }

  predicate AllDigits(s: string) {
    forall i :: 0 <= i < |s| ==> IsDigit(s[i])
  }

  /** Horner evaluation: `acc` followed by the digits of `ds` */
  function Shift(acc: nat, ds: string): nat
    requires AllDigits(ds)
    decreases ds
  {
    if ds == [] then acc else Shift(acc * 10 + DigitValue(ds[0]), ds[1..])
  }

  /** The value of a decimal numeral, most significant digit first */
  function Value(ds: string): nat
    requires AllDigits(ds)
  {
    Shift(0, ds)
  }

  lemma {:induction false} ShiftAtLeast(acc: nat, ds: string)
    requires AllDigits(ds)
    ensures Shift(acc, ds) >= acc
    decreases ds
  {
    if ds != [] {
      ShiftAtLeast(acc * 10 + DigitValue(ds[0]), ds[1..]);
    }
  }

  lemma {:induction false} ShiftAppend(acc: nat, xs: string, ys: string)
    requires AllDigits(xs) && AllDigits(ys)
    ensures AllDigits(xs + ys)
    ensures Shift(acc, xs + ys) == Shift(Shift(acc, xs), ys)
    decreases xs
  {
    if xs == [] {
      assert xs + ys == ys;
    } else {
      assert (xs + ys)[0] == xs[0];
      assert (xs + ys)[1..] == xs[1..] + ys;
      ShiftAppend(acc * 10 + DigitValue(xs[0]), xs[1..], ys);
    }
  }

  /** `u` is what is left of `s` once a non-empty prefix has been consumed */
  predicate ProperSuffix(u: string, s: string) {
    |u| < |s| && u == s[|s| - |u|..]
  }

  /** Length of the longest prefix of `s` made of digits */
  function DigitRun(s: string): (n: nat)
    ensures n <= |s|
    ensures AllDigits(s[..n])
    ensures n < |s| ==> !IsDigit(s[n])
  {
    if s == [] || !IsDigit(s[0]) then 0
    else
      var n := 1 + DigitRun(s[1..]);
      assert s[..n] == [s[0]] + s[1..][..n - 1];
      n
  }

  /** The digit run of a numeral followed by a non-digit is the numeral */
  lemma DigitRunOfNumeral(ds: string, rest: string)
    requires AllDigits(ds)
    requires rest == [] || !IsDigit(rest[0])
    ensures DigitRun(ds + rest) == |ds|
    ensures (ds + rest)[..|ds|] == ds && (ds + rest)[|ds|..] == rest
  {
  }

  /** nom's digit loop: consume digits while accumulating with checked
      arithmetic, failing as soon as the running value exceeds `max`, and stop
      at the first non-digit. */
  function CheckedDigits(s: string, acc: nat, max: nat): Option<(nat, string)>
    requires acc <= max
  {
    if s == [] || !IsDigit(s[0]) then Some((acc, s))
    else if acc * 10 + DigitValue(s[0]) > max then None
    else CheckedDigits(s[1..], acc * 10 + DigitValue(s[0]), max)
  }

  /** The checked loop fails exactly when the whole digit run overflows */
  lemma {:induction false} CheckedDigitsOverflow(s: string, acc: nat, max: nat)
    requires acc <= max
    ensures var n := DigitRun(s);
      CheckedDigits(s, acc, max) ==
        if Shift(acc, s[..n]) > max then None else Some((Shift(acc, s[..n]), s[n..]))
  {
    var n := DigitRun(s);
    if s == [] || !IsDigit(s[0]) {
      assert s[..n] == [];
    } else {
      var acc' := acc * 10 + DigitValue(s[0]);
      assert s[..n][1..] == s[1..][..n - 1];
      assert DigitRun(s[1..]) == n - 1;
      if acc' > max {
        ShiftAtLeast(acc', s[1..][..n - 1]);
      } else {
        CheckedDigitsOverflow(s[1..], acc', max);
        assert s[1..][n - 1..] == s[n..];
      }
    }
  }

  /** nom's `u32`-style parser with the given upper bound: at least one digit,
      the longest digit run, and failure on overflow. */
  function ParseUnsigned(s: string, max: nat): (r: Option<(nat, string)>)
    ensures var n := DigitRun(s);
      r == if n == 0 || Value(s[..n]) > max then None else Some((Value(s[..n]), s[n..]))
  {
    if s == [] || !IsDigit(s[0]) then None
    else
      CheckedDigitsOverflow(s, 0, max);
      CheckedDigits(s, 0, max)
  }

  /** nom's `i32`: an optional `+` or `-` sign, then digits accumulated
      towards the sign with checked arithmetic. */
  function ParseI32(s: string): (r: Option<(int, string)>)
    ensures r.Some? ==> -(I32MinMagnitude as int) <= r.value.0 <= I32Max
    ensures r.Some? ==> ProperSuffix(r.value.1, s)
  {
    var negative := |s| > 0 && s[0] == '-';
    var t := if |s| > 0 && (s[0] == '-' || s[0] == '+') then s[1..] else s;
    match ParseUnsigned(t, if negative then I32MinMagnitude else I32Max)
    case None => None
    case Some((v, rest)) =>
      var signed: int := if negative then -(v as int) else v;
      Some((signed, rest))
  }

  /** A numeral followed by a non-digit parses to its value, or fails when it
      exceeds the bound */
  lemma ParseUnsignedNumeral(ds: string, rest: string, max: nat)
    requires ds != [] && AllDigits(ds)
    requires rest == [] || !IsDigit(rest[0])
    ensures ParseUnsigned(ds + rest, max) == if Value(ds) <= max then Some((Value(ds), rest)) else None
  {
    DigitRunOfNumeral(ds, rest);
  }

  /** What an accepted unsigned numeral looks like: a digit run, with its
      value, followed by text that does not start with a digit */
  lemma ParseUnsignedShape(t: string, max: nat) returns (ds: string)
    requires ParseUnsigned(t, max).Some?
    ensures var (v, rest) := ParseUnsigned(t, max).value;
      && ds != [] && AllDigits(ds) && v == Value(ds) && t == ds + rest
      && (rest == [] || !IsDigit(rest[0]))
  {
    var n := DigitRun(t);
    ds := t[..n];
    assert t == t[..n] + t[n..];
  }

  /** What an accepted `i32` looks like: an optional sign, a digit run whose
      value, negated after '-', is the result, and text that does not start
      with a digit */
  lemma ParseI32Shape(s: string) returns (sign: string, ds: string)
    requires ParseI32(s).Some?
    ensures sign == "" || sign == "+" || sign == "-"
    ensures var (v, rest) := ParseI32(s).value;
      && ds != [] && AllDigits(ds) && s == sign + ds + rest
      && v == (if sign == "-" then -(Value(ds) as int) else Value(ds))
      && (rest == [] || !IsDigit(rest[0]))
  {
    var negative := |s| > 0 && s[0] == '-';
    var t := s;
    sign := "";
    if |s| > 0 && (s[0] == '-' || s[0] == '+') {
      sign, t := s[..1], s[1..];
      assert s == sign + t;
    }
    ds := ParseUnsignedShape(t, if negative then I32MinMagnitude else I32Max);
  }

  /** Rust's `str::parse::<usize>`: an optional `+`, then one or more digits
      and nothing else, with a value that fits in 64 bits. */
  function ParseUsize(s: string): (r: Option<nat>)
    ensures r.Some? ==> r.value <= UsizeMax
    ensures r.Some? ==> s != [] && s[0] != '-'
  {
    if s == [] then None
    else
      var digits := if s[0] == '+' then s[1..] else s;
      if digits == [] || !AllDigits(digits) || Value(digits) > UsizeMax then None
      else Some(Value(digits))
  }

  /** Decimal rendering without leading zeros */
  function Decimal(n: nat): (ds: string)
    ensures ds != [] && AllDigits(ds)
    ensures Value(ds) == n
    ensures ds[0] == '0' ==> n == 0
  {
    if n < 10 then
      assert Shift(0, [DigitChar(n)]) == Shift(n, []);
      [DigitChar(n)]
    else
      var ds := Decimal(n / 10) + [DigitChar(n % 10)];
      ShiftAppend(0, Decimal(n / 10), [DigitChar(n % 10)]);
      ds
  }

  /** Leading zeros do not change a numeral's value */
  lemma {:induction false} LeadingZeros(k: nat, ds: string)
    requires AllDigits(ds)
    ensures AllDigits(Zeros(k) + ds) && Value(Zeros(k) + ds) == Value(ds)
  {
    DigitsConcat(Zeros(k), ds);
    if k == 0 {
      assert Zeros(k) + ds == ds;
    } else {
      LeadingZeros(k - 1, ds);
      var z := Zeros(k) + ds;
      assert z[0] == '0';
      assert z[1..] == Zeros(k - 1) + ds;
      assert Shift(0, z) == Shift(0, z[1..]);
    }
  }

  lemma DigitsConcat(xs: string, ys: string)
    requires AllDigits(xs) && AllDigits(ys)
    ensures AllDigits(xs + ys)
  {
    forall i | 0 <= i < |xs + ys|
      ensures IsDigit((xs + ys)[i])
    {
      if i < |xs| { assert (xs + ys)[i] == xs[i]; } else { assert (xs + ys)[i] == ys[i - |xs|]; }
    }
  }

  function Zeros(k: nat): (z: string)
    ensures |z| == k && AllDigits(z)
  {
    if k == 0 then [] else ['0'] + Zeros(k - 1)
  }

  /** `parse::<usize>` reads a bare or `+`-signed numeral as its value, when
      that fits in 64 bits */
  lemma ParseUsizeDigits(sign: string, ds: string)
    requires sign == "" || sign == "+"
    requires ds != [] && AllDigits(ds)
    ensures ParseUsize(sign + ds) == if Value(ds) <= UsizeMax then Some(Value(ds)) else None
  {
    var s := sign + ds;
    if sign == "+" {
      assert s[0] == '+' && s[1..] == ds;
    } else {
      assert s == ds;
      assert s[0] != '+';
    }
  }

  /** `parse::<usize>` accepts exactly the numerals whose value fits, with or
      without a `+` sign and leading zeros. */
  lemma ParseUsizeNumeral(sign: string, k: nat, n: nat)
    requires sign == "" || sign == "+"
    ensures AllDigits(Zeros(k) + Decimal(n))
    ensures ParseUsize(sign + Zeros(k) + Decimal(n)) == if n <= UsizeMax then Some(n) else None
  {
    var dec := Decimal(n);
    var ds := Zeros(k) + dec;
    LeadingZeros(k, dec);
    assert |ds| >= |dec| > 0;
    assert Value(ds) == n;
    ParseUsizeDigits(sign, ds);
    assert sign + Zeros(k) + dec == sign + ds;
  }

  /** `parse::<usize>` refuses a minus sign, a sign with no digits after it,
      and any non-digit */
  lemma ParseUsizeRejects(s: string)
    requires s != []
    requires s[0] == '-' || s == "+" || (s[0] != '+' && !IsDigit(s[0])) || (exists i :: 1 <= i < |s| && !IsDigit(s[i]))
    ensures ParseUsize(s) == None
  {
    if s[0] == '+' && s != "+" {
      var i :| 1 <= i < |s| && !IsDigit(s[i]);
      assert !IsDigit(s[1..][i - 1]);
    }
  }
}

=== FILE: query_planner.dfy ===
/** `WeatherQuery` and `handle_query`: a query with an optional limit, date
    and weather kind is answered from the date index, the kind index or a
    scan of the dataset, tried in that order. */
module QueryPlanner {
  import opened Wrappers
  import opened Calendar
  import opened WeatherKinds
  import opened WeatherRows
  import opened IndexStore

  datatype Query = Query(limit: Option<nat>, date: Option<Date>, weather: Option<Kind>)

  /** `take(limit)` when a limit is present, everything otherwise */
  function Take(s: seq<Entry>, limit: Option<nat>): (r: seq<Entry>)
    ensures limit.None? ==> r == s
    ensures limit.Some? ==> |r| == (if limit.value < |s| then limit.value else |s|)
    ensures r == s[..|r|]
  {
    match limit
    case None => s
    case Some(n) => if n < |s| then s[..n] else s
  }

  predicate KindAllowed(q: Query, k: Kind) {
    q.weather.None? || q.weather.value == k
  }

  /** The date index answers with at most the entry under `date`, kept only
      when the query's kind, if any, is its kind */
  function HandleDateQuery(st: State, date: Date, q: Query): (r: Result<seq<Entry>, IndexError>)
    ensures r.Failure? <==> st.byDate.None?
    ensures r.Failure? ==> r.error == NotPopulated
    ensures r.Success? ==> |r.value| <= 1
    ensures r.Success? && Consistent(st) ==> forall e :: e in r.value ==> e.date == date && KindAllowed(q, e.weather)
    ensures r.Success? && Consistent(st) ==>
      r.value == match LastWithDate(st.entries, date)
                 case Some(e) => if KindAllowed(q, e.weather) then [e] else []
                 case None => []
  {
    match st.byDate
    case None => Failure(NotPopulated)
    case Some(byDate) =>
      if date in byDate && KindAllowed(q, byDate[date].weather) then
        assert LookupDate(byDate, date) == Some(byDate[date]);
        assert Consistent(st) ==> byDate[date].date == date;
        Success([byDate[date]])
      else
        Success([])
  }

  /** The kind index answers with the entries of `kind`, cut to the limit */
  function HandleKindQuery(st: State, kind: Kind, q: Query): (r: Result<seq<Entry>, IndexError>)
    ensures r.Failure? <==> st.byKind.None?
    ensures r.Failure? ==> r.error == NotPopulated
    ensures r.Success? && Consistent(st) ==> forall e :: e in r.value ==> e.weather == kind
    ensures r.Success? && Consistent(st) ==> r.value == Take(OfKind(st.entries, kind), q.limit)
  {
    match st.byKind
    case None => Failure(NotPopulated)
    case Some(byKind) =>
      var all := LookupKind(byKind, kind);
      assert Consistent(st) ==> all == OfKind(st.entries, kind);
      Success(Take(all, q.limit))
  }

  /** The dataset, cut to the limit; needs no index */
  function FullScan(st: State, q: Query): (r: seq<Entry>)
    ensures q.limit.None? ==> r == st.entries
    ensures q.limit.Some? ==> |r| == (if q.limit.value < |st.entries| then q.limit.value else |st.entries|)
    ensures r == st.entries[..|r|]
  {
    Take(st.entries, q.limit)
  }

  /** Plan and answer a query. A limit of zero answers nothing at once; then
      a date goes to the date index, then a kind to the kind index, and
      otherwise the dataset is scanned. Only the index paths need the
      indexes to have been built. */
  function HandleQuery(st: State, q: Query): (r: Result<seq<Entry>, IndexError>)
    ensures q.limit == Some(0) ==> r == Success([])
    ensures r.Failure? <==> (q.limit != Some(0)
      && ((q.date.Some? && st.byDate.None?) || (q.date.None? && q.weather.Some? && st.byKind.None?)))
    ensures r.Success? && Consistent(st) && q.date.Some? ==>
      |r.value| <= 1 && forall e :: e in r.value ==> e.date == q.date.value && KindAllowed(q, e.weather)
    ensures Populated(st) && q.limit != Some(0) && q.date.Some? ==>
      r == Success(match LastWithDate(st.entries, q.date.value)
                   case Some(e) => if KindAllowed(q, e.weather) then [e] else []
                   case None => [])
    ensures Populated(st) && q.limit != Some(0) && q.date.None? && q.weather.Some? ==>
      r == Success(Take(OfKind(st.entries, q.weather.value), q.limit))
    ensures q.limit != Some(0) && q.date.None? && q.weather.None? ==>
      r.Success?
      && |r.value| == (if q.limit.Some? && q.limit.value < |st.entries| then q.limit.value else |st.entries|)
      && r.value == st.entries[..|r.value|]
  {
    if q.limit == Some(0) then Success([])
    else if q.date.Some? then HandleDateQuery(st, q.date.value, q)
    else if q.weather.Some? then HandleKindQuery(st, q.weather.value, q)
    else Success(FullScan(st, q))
  }

  /** Whether an entry meets every constraint of the query but the limit */
  predicate Matches(q: Query, e: Entry) {
    (q.date.None? || e.date == q.date.value) && KindAllowed(q, e.weather)
  }

  /** The reference answer's filter: the entries meeting the query, in
      dataset order */
  function Selected(s: seq<Entry>, q: Query): (r: seq<Entry>)
    ensures forall j :: 0 <= j < |r| ==> Matches(q, r[j]) && r[j] in s
  {
    if s == [] then []
    else
      var init := Selected(s[..|s| - 1], q);
      assert forall i :: 0 <= i < |s| - 1 ==> s[..|s| - 1][i] == s[i];
      init + (if Matches(q, s[|s| - 1]) then [s[|s| - 1]] else [])
  }

  lemma {:induction false} SelectedByKind(s: seq<Entry>, q: Query)
    requires q.date.None? && q.weather.Some?
    ensures Selected(s, q) == OfKind(s, q.weather.value)
  {
    if s != [] {
      SelectedByKind(s[..|s| - 1], q);
    }
  }

  lemma {:induction false} SelectedAll(s: seq<Entry>, q: Query)
    requires q.date.None? && q.weather.None?
    ensures Selected(s, q) == s
  {
    if s != [] {
      SelectedAll(s[..|s| - 1], q);
      assert s == s[..|s| - 1] + [s[|s| - 1]];
    }
  }

  lemma {:induction false} SelectedAbsentDate(s: seq<Entry>, q: Query)
    requires q.date.Some?
    requires forall i :: 0 <= i < |s| ==> s[i].date != q.date.value
    ensures Selected(s, q) == []
  {
    if s != [] {
      SelectedAbsentDate(s[..|s| - 1], q);
    }
  }

  lemma {:induction false} SelectedByDate(s: seq<Entry>, q: Query)
    requires q.date.Some? && UniqueDates(s)
    ensures Selected(s, q) == match LastWithDate(s, q.date.value)
                              case Some(e) => if KindAllowed(q, e.weather) then [e] else []
                              case None => []
  {
    if s != [] {
      var init, last := s[..|s| - 1], s[|s| - 1];
      assert UniqueDates(init);
      if last.date == q.date.value {
        SelectedAbsentDate(init, q);
      } else {
        SelectedByDate(init, q);
      }
    }
  }

  /** With the indexes built, the planner answers exactly the entries meeting
      every constraint, in dataset order, cut to the limit: the result has
      min(limit, matches) entries. A date query needs unique dates for this,
      since the date index keeps one entry per date. */
  lemma QueryAnswersReference(st: State, q: Query)
    requires Populated(st)
    requires q.limit == Some(0) || q.date.None? || UniqueDates(st.entries)
    ensures HandleQuery(st, q) == Success(Take(Selected(st.entries, q), q.limit))
    ensures var n := |Selected(st.entries, q)|;
      |HandleQuery(st, q).value| == if q.limit.Some? && q.limit.value < n then q.limit.value else n
  {
    if q.limit == Some(0) {
    } else if q.date.Some? {
      SelectedByDate(st.entries, q);
    } else if q.weather.Some? {
      SelectedByKind(st.entries, q);
    } else {
      SelectedAll(st.entries, q);
    }
  }

  /** A date absent from the dataset is answered with nothing */
  lemma UnknownDateAnswersNothing(st: State, q: Query)
    requires Populated(st) && q.limit != Some(0) && q.date.Some?
    requires forall i :: 0 <= i < |st.entries| ==> st.entries[i].date != q.date.value
    ensures HandleQuery(st, q) == Success([])
  {
  }

  /** A kind absent from the dataset is answered with nothing, not an error */
  lemma AbsentKindAnswersNothing(st: State, q: Query)
    requires Populated(st) && q.limit != Some(0) && q.date.None? && q.weather.Some?
    requires forall i :: 0 <= i < |st.entries| ==> st.entries[i].weather != q.weather.value
    ensures HandleQuery(st, q) == Success([])
  {
  }

  /** A two-day dataset, a sunny day followed by a rainy one, and how each
      shape of query is answered over it */
  lemma TwoDayExamples(st: State, sunny: Entry, rainy: Entry)
    requires Populated(st) && st.entries == [sunny, rainy]
    requires sunny.date == Date(2012, 6, 3) && sunny.weather == Sun
    requires rainy.date == Date(2012, 6, 4) && rainy.weather == Rain
    ensures HandleQuery(st, Query(None, Some(Date(2012, 6, 3)), None)) == Success([sunny])
    ensures HandleQuery(st, Query(None, Some(Date(2012, 6, 3)), Some(Rain))) == Success([])
    ensures HandleQuery(st, Query(None, Some(Date(2012, 6, 5)), None)) == Success([])
    ensures HandleQuery(st, Query(None, None, Some(Rain))) == Success([rainy])
    ensures HandleQuery(st, Query(None, None, Some(Fog))) == Success([])
    ensures HandleQuery(st, Query(Some(1), None, None)) == Success([sunny])
    ensures HandleQuery(st, Query(Some(0), None, Some(Sun))) == Success([])
    ensures HandleQuery(st, Query(None, None, None)) == Success([sunny, rainy])
  {
    assert [sunny, rainy][..1] == [sunny];
    assert OfKind([sunny], Rain) == [];
    assert OfKind([sunny, rainy], Rain) == [rainy];
  }
}

=== FILE: query_requests.dfy ===
/** The conversion of a request's optional text parameters into a typed
    query (`TryFrom<WeatherQueryRequest> for WeatherQuery`). The limit is
    checked first, then the date, then the weather kind, and the first
    invalid one is reported. */
module QueryRequests {
  import opened Wrappers
  import opened Numerals
  import opened Calendar
  import opened DateParser
  import opened WeatherKinds
  import opened QueryPlanner

  datatype QueryRequest = QueryRequest(limit: Option<string>, weather: Option<string>, date: Option<string>)

  /** A rejected parameter, with the text that was given for it */
  datatype QueryError = InvalidLimit(text: string) | InvalidDate(text: string) | InvalidWeather(text: string)

  predicate LimitOk(o: Option<string>) {
    o.None? || ParseUsize(o.value).Some?
  }

  predicate DateOk(o: Option<string>) {
    o.None? || ParseDate(o.value).Some?
  }

  predicate WeatherOk(o: Option<string>) {
    o.None? || ParseKind(o.value).Some?
  }

  function LimitParam(o: Option<string>): (r: Result<Option<nat>, QueryError>)
    ensures r.Success? <==> LimitOk(o)
    ensures r.Failure? ==> r.error.InvalidLimit? && o == Some(r.error.text)
    ensures r.Success? ==> (r.value.None? <==> o.None?)
    ensures r.Success? && r.value.Some? ==> r.value.value <= UsizeMax
    ensures r.Success? && o.Some? ==> r.value == ParseUsize(o.value)
  {
    match o
    case None => Success(None)
    case Some(s) =>
      match ParseUsize(s)
      case None => Failure(InvalidLimit(s))
      case Some(n) => Success(Some(n))
  }

  /** Only the parsed date is kept; text after the day is dropped */
  function DateParam(o: Option<string>): (r: Result<Option<Date>, QueryError>)
    ensures r.Success? <==> DateOk(o)
    ensures r.Failure? ==> r.error.InvalidDate? && o == Some(r.error.text)
    ensures r.Success? ==> (r.value.None? <==> o.None?)
    ensures r.Success? && r.value.Some? ==> IsValidDate(r.value.value)
    ensures r.Success? && o.Some? ==> r.value == Some(ParseDate(o.value).value.0)
  {
    match o
    case None => Success(None)
    case Some(s) =>
      match ParseDate(s)
      case None => Failure(InvalidDate(s))
      case Some((d, _)) => Success(Some(d))
  }

  function WeatherParam(o: Option<string>): (r: Result<Option<Kind>, QueryError>)
    ensures r.Success? <==> WeatherOk(o)
    ensures r.Failure? ==> r.error.InvalidWeather? && o == Some(r.error.text)
    ensures r.Success? ==> (r.value.None? <==> o.None?)
    ensures r.Success? && r.value.Some? ==> EqIgnoreAsciiCase(o.value, Name(r.value.value))
    ensures r.Success? && o.Some? ==> r.value == ParseKind(o.value)
  {
    match o
    case None => Success(None)
    case Some(s) =>
      match ParseKind(s)
      case None => Failure(InvalidWeather(s))
      case Some(k) => Success(Some(k))
  }

  function ToQuery(req: QueryRequest): (r: Result<Query, QueryError>)
    ensures r.Success? <==> LimitOk(req.limit) && DateOk(req.date) && WeatherOk(req.weather)
    ensures r.Failure? ==> (r.error.InvalidLimit? <==> !LimitOk(req.limit))
    ensures r.Failure? ==> (r.error.InvalidDate? <==> LimitOk(req.limit) && !DateOk(req.date))
    ensures r.Failure? ==> (r.error.InvalidWeather? <==> LimitOk(req.limit) && DateOk(req.date) && !WeatherOk(req.weather))
    ensures r.Failure? && r.error.InvalidLimit? ==> req.limit == Some(r.error.text)
    ensures r.Failure? && r.error.InvalidDate? ==> req.date == Some(r.error.text)
    ensures r.Failure? && r.error.InvalidWeather? ==> req.weather == Some(r.error.text)
    ensures r.Success? ==> (r.value.limit.None? <==> req.limit.None?)
    ensures r.Success? ==> (r.value.date.None? <==> req.date.None?)
    ensures r.Success? ==> (r.value.weather.None? <==> req.weather.None?)
    ensures r.Success? && r.value.limit.Some? ==> r.value.limit.value <= UsizeMax
    ensures r.Success? && r.value.date.Some? ==> IsValidDate(r.value.date.value)
    ensures r.Success? && r.value.weather.Some? ==> EqIgnoreAsciiCase(req.weather.value, Name(r.value.weather.value))
    ensures r.Success? && req.limit.Some? ==> r.value.limit == ParseUsize(req.limit.value)
    ensures r.Success? && req.date.Some? ==> r.value.date == Some(ParseDate(req.date.value).value.0)
    ensures r.Success? && req.weather.Some? ==> r.value.weather == ParseKind(req.weather.value)
  {
    match LimitParam(req.limit)
    case Failure(e) => Failure(e)
    case Success(limit) =>
      match DateParam(req.date)
      case Failure(e) => Failure(e)
      case Success(date) =>
        match WeatherParam(req.weather)
        case Failure(e) => Failure(e)
        case Success(weather) => Success(Query(limit, date, weather))
  }

  /** A request with no parameters is the unconstrained query */
  lemma EmptyRequest()
    ensures ToQuery(QueryRequest(None, None, None)) == Success(Query(None, None, None))
  {
  }

  /** A limit written as a numeral, with or without `+` and leading zeros,
      is that number when it fits in 64 bits and an invalid limit otherwise */
  lemma LimitNumeral(sign: string, zeros: nat, n: nat)
    requires sign == "" || sign == "+"
    ensures var text := sign + Zeros(zeros) + Decimal(n);
      ToQuery(QueryRequest(Some(text), None, None))
        == if n <= UsizeMax then Success(Query(Some(n), None, None)) else Failure(InvalidLimit(text))
  {
    ParseUsizeNumeral(sign, zeros, n);
  }

  /** A negative limit is refused */
  lemma NegativeLimit(digits: string, req: QueryRequest)
    requires req.limit == Some("-" + digits)
    ensures ToQuery(req) == Failure(InvalidLimit("-" + digits))
  {
    ParseUsizeRejects("-" + digits);
  }

  /** A date parameter keeps the parsed date, signed year included, and
      ignores text after the day */
  lemma DateTrailingTextIgnored(sign: string, ys: string, ms: string, ds: string, rest: string)
    requires sign == "" || sign == "+" || sign == "-"
    requires ys != [] && AllDigits(ys) && ms != [] && AllDigits(ms) && ds != [] && AllDigits(ds)
    requires rest == [] || !IsDigit(rest[0])
    ensures var y := if sign == "-" then -(Value(ys) as int) else Value(ys);
      var text := sign + ys + "-" + ms + "-" + ds + rest;
      ToQuery(QueryRequest(None, None, Some(text)))
        == if IsValidYmd(y, Value(ms), Value(ds)) then Success(Query(None, Some(Date(y, Value(ms), Value(ds))), None))
           else Failure(InvalidDate(text))
  {
    ParseDateNumerals(sign, ys, ms, ds, rest);
  }

  /** A request with all three parameters carries all three parsed values */
  lemma FullRequest(n: nat, w: string, k: Kind, ys: string, ms: string, ds: string)
    requires n <= UsizeMax && EqIgnoreAsciiCase(w, Name(k))
    requires ys != [] && AllDigits(ys) && ms != [] && AllDigits(ms) && ds != [] && AllDigits(ds)
    requires IsValidYmd(Value(ys), Value(ms), Value(ds))
    ensures ToQuery(QueryRequest(Some(Decimal(n)), Some(w), Some(ys + "-" + ms + "-" + ds)))
      == Success(Query(Some(n), Some(Date(Value(ys), Value(ms), Value(ds))), Some(k)))
  {
    LimitOfNumeral(n);
    DateOfNumerals(ys, ms, ds);
    ParseKindIff(w, k);
  }

  lemma LimitOfNumeral(n: nat)
    requires n <= UsizeMax
    ensures LimitParam(Some(Decimal(n))) == Success(Some(n))
  {
    ParseUsizeNumeral("", 0, n);
    assert "" + Zeros(0) + Decimal(n) == Decimal(n);
  }

  lemma DateOfNumerals(ys: string, ms: string, ds: string)
    requires ys != [] && AllDigits(ys) && ms != [] && AllDigits(ms) && ds != [] && AllDigits(ds)
    requires IsValidYmd(Value(ys), Value(ms), Value(ds))
    ensures DateParam(Some(ys + "-" + ms + "-" + ds)) == Success(Some(Date(Value(ys), Value(ms), Value(ds))))
  {
    var empty: string := [];
    assert empty + ys + "-" + ms + "-" + ds + empty == ys + "-" + ms + "-" + ds;
    ParseDateNumerals(empty, ys, ms, ds, empty);
  }

  /** A weather parameter names its kind in any ASCII case */
  lemma WeatherAnyCase(w: string, k: Kind)
    requires EqIgnoreAsciiCase(w, Name(k))
    ensures ToQuery(QueryRequest(None, Some(w), None)) == Success(Query(None, None, Some(k)))
  {
    ParseKindIff(w, k);
  }
}

=== FILE: startup.dfy ===
/** What the service holds once it has started: the dataset is the loaded
    file, sorted by date, and the indexes are built over it. These lemmas
    trace an index lookup back to the rows of the file. */
module Startup {
  import opened Wrappers
  import opened Calendar
  import opened WeatherRows
  import opened DateSort
  import opened WeatherFile
  import opened IndexStore

  lemma {:induction false} WithDateAppend(a: seq<Entry>, b: seq<Entry>, d: Date)
    ensures WithDate(a + b, d) == WithDate(a, d) + WithDate(b, d)
  {
    if a != [] {
      assert (a + b)[1..] == a[1..] + b;
      WithDateAppend(a[1..], b, d);
    } else {
      assert a + b == b;
    }
  }

  /** The last entry dated `d` is the last element of the entries dated `d` */
  lemma {:induction false} LastWithDateIsLastOfWithDate(s: seq<Entry>, d: Date)
    ensures var w := WithDate(s, d);
      LastWithDate(s, d) == if w == [] then None else Some(w[|w| - 1])
  {
    if s != [] {
      var init, x := s[..|s| - 1], s[|s| - 1];
      assert s == init + [x];
      WithDateAppend(init, [x], d);
      assert WithDate([x], d) == (if x.date == d then [x] else []) + WithDate([], d);
      LastWithDateIsLastOfWithDate(init, d);
    }
  }

  /** After start-up, the date index maps each date to the LAST parsed row
      with that date: the stable sort keeps same-date rows in file order, and
      building the index lets a later entry overwrite an earlier one. The
      rows are those of the file, `ParseContents(text, _)`, when
      the dataset is `Load(text, _)`. */
  lemma DateIndexHoldsLastRowOfFile(rows: seq<RowResult>, st: State, d: Date)
    requires Populated(st) && LoadRows(rows) == Success(st.entries)
    ensures LookupDate(st.byDate.value, d) == LastWithDate(Successes(rows), d)
  {
    var parsed := Successes(rows);
    assert st.entries == SortByDate(parsed);
    SortIsStable(parsed, d);
    SameDateOrderSameLast(st.entries, parsed, d);
    assert IsDateIndexOf(st.entries, st.byDate.value);
    assert LookupDate(st.byDate.value, d) == LastWithDate(st.entries, d);
  }

  /** Lists that agree on their entries dated `d` agree on the last of them */
  lemma SameDateOrderSameLast(a: seq<Entry>, b: seq<Entry>, d: Date)
    requires WithDate(a, d) == WithDate(b, d)
    ensures LastWithDate(a, d) == LastWithDate(b, d)
  {
    LastWithDateIsLastOfWithDate(a, d);
    LastWithDateIsLastOfWithDate(b, d);
  }

  /** Start-up: the first `populate_indexes` call loads the file and builds
      both indexes over the loaded dataset. A load failure stops start-up
      with the load's error; population itself cannot fail the first time. */
  method Start(text: string, readFloat: FloatReader) returns (r: Result<State, LoadError>)
    ensures r.Success? <==> Load(text, readFloat).Success?
    ensures r.Failure? ==> r.error == Load(text, readFloat).error
    ensures r.Success? ==> r.value.entries == Load(text, readFloat).value && Populated(r.value)
  {
    var loaded := Load(text, readFloat);
    if loaded.Failure? {
      return Failure(loaded.error);
    }
    var populated := PopulateIndexes(Initial(loaded.value));
    assert populated.Success?;
    return Success(populated.value);
  }
}

=== FILE: text_lines.dfy ===
/** `str::lines`: split at "\n", drop one "\r" before each "\n", and yield no
    empty line after a final "\n". */
module TextLines {

  /** Index of the first newline in `s`, or `|s|` when there is none */
  function LineEnd(s: string): (n: nat)
    ensures n <= |s|
    ensures forall i :: 0 <= i < n ==> s[i] != '\n'
    ensures n < |s| ==> s[n] == '\n'
  {
    if s == [] || s[0] == '\n' then 0 else 1 + LineEnd(s[1..])
  }

  /** `l` contains a newline: its first line ends before its end */
  predicate HasNewline(l: string) {
    LineEnd(l) < |l|
  }

  lemma HasNewlineIff(l: string)
    ensures HasNewline(l) <==> exists i :: 0 <= i < |l| && l[i] == '\n'
  {
  }

  function DropCarriageReturn(l: string): string {
    if |l| > 0 && l[|l| - 1] == '\r' then l[..|l| - 1] else l
  }

  function Lines(s: string): (ls: seq<string>)
    ensures forall j :: 0 <= j < |ls| ==> !HasNewline(ls[j])
    ensures s == [] <==> ls == []
    decreases |s|
  {
    if s == [] then []
    else
      var n := LineEnd(s);
      if n == |s| then [s]
      else [DropCarriageReturn(s[..n])] + Lines(s[n + 1..])
  }

  /** Each line followed by a newline */
  function Unlines(ls: seq<string>): string {
    if ls == [] then [] else ls[0] + "\n" + Unlines(ls[1..])
  }

  /** A line that `Lines` gives back unchanged */
  predicate IsPlainLine(l: string) {
    !HasNewline(l) && (l == [] || l[|l| - 1] != '\r')
  }

  /** A plain line and its newline come off the front as one line */
  lemma LinesCons(l: string, rest: string)
    requires IsPlainLine(l)
    ensures Lines(l + "\n" + rest) == [l] + Lines(rest)
  {
    var s := l + "\n" + rest;
    assert s[..|l|] == l;
    assert s[|l| + 1..] == rest;
    assert forall i :: 0 <= i < |l| ==> s[i] == l[i];
    LineEndAt(s, |l|);
  }

  /** A line ended by "\r\n" comes off the front without its "\r" */
  lemma CrLf(l: string, rest: string)
    requires !HasNewline(l)
    ensures Lines(l + "\r\n" + rest) == [l] + Lines(rest)
  {
    var s := l + "\r\n" + rest;
    assert s[..|l| + 1] == l + "\r";
    assert s[|l| + 2..] == rest;
    assert forall i :: 0 <= i < |l| ==> s[i] == l[i];
    LineEndAt(s, |l| + 1);
    assert DropCarriageReturn(l + "\r") == l;
  }

  /** A newline with none before it is where the first line ends */
  lemma LineEndAt(s: string, k: nat)
    requires k < |s| && s[k] == '\n'
    requires forall i :: 0 <= i < k ==> s[i] != '\n'
    ensures LineEnd(s) == k
  {
  }

  /** Splitting newline-terminated lines gives the lines back */
  lemma {:induction false} LinesOfUnlines(ls: seq<string>)
    requires forall j :: 0 <= j < |ls| ==> IsPlainLine(ls[j])
    ensures Lines(Unlines(ls)) == ls
  {
    if ls != [] {
      LinesCons(ls[0], Unlines(ls[1..]));
      LinesOfUnlines(ls[1..]);
    }
  }

  /** A last line without a newline after it is still a line of its own */
  lemma {:induction false} LinesUnterminated(ls: seq<string>, last: string)
    requires forall j :: 0 <= j < |ls| ==> IsPlainLine(ls[j])
    requires last != [] && !HasNewline(last)
    ensures Lines(Unlines(ls) + last) == ls + [last]
  {
    if ls == [] {
      assert Unlines(ls) + last == last;
      assert LineEnd(last) == |last|;
    } else {
      assert Unlines(ls) + last == ls[0] + "\n" + (Unlines(ls[1..]) + last);
      LinesCons(ls[0], Unlines(ls[1..]) + last);
      LinesUnterminated(ls[1..], last);
      assert ls == [ls[0]] + ls[1..];
    }
  }

  /** The lines joined by newlines, with or without a newline after the last
      one: a file written either way */
  function Joined(ls: seq<string>, terminated: bool): string {
    if terminated || ls == [] then Unlines(ls) else Unlines(ls[..|ls| - 1]) + ls[|ls| - 1]
  }

  /** Splitting a file gives its lines back, whether or not the last line is
      terminated, except that an unterminated empty last line is no line */
  lemma LinesOfJoined(ls: seq<string>, terminated: bool)
    requires forall j :: 0 <= j < |ls| ==> IsPlainLine(ls[j])
    ensures terminated || ls == [] || ls[|ls| - 1] != [] ==> Lines(Joined(ls, terminated)) == ls
    ensures !terminated && ls != [] && ls[|ls| - 1] == [] ==> Lines(Joined(ls, terminated)) == ls[..|ls| - 1]
  {
    if terminated || ls == [] {
      LinesOfUnlines(ls);
    } else {
      var init, last := ls[..|ls| - 1], ls[|ls| - 1];
      if last == [] {
        assert Joined(ls, terminated) == Unlines(init);
        LinesOfUnlines(init);
      } else {
        LinesUnterminated(init, last);
        assert init + [last] == ls;
      }
    }
  }
}

=== FILE: weather_file.dfy ===
/** The weather file as a whole: `parse_weather_file_contents`, which turns
    the data lines into one result each, and the load step of
    `weather_entries`, which refuses a file with any bad line and otherwise
    sorts the entries by date. */
module WeatherFile {
  import opened Wrappers
  import opened TextLines
  import opened WeatherRows
  import opened DateSort

  /** A row that failed: its line number, its text, and the field at fault */
  datatype LineError = LineError(lineNum: nat, line: string, error: Field)

  type RowResult = Result<Entry, LineError>

  /** The lines that are not empty, in order */
  function NonEmpty(ls: seq<string>): (r: seq<string>)
    ensures forall j :: 0 <= j < |r| ==> r[j] != []
    ensures |r| <= |ls|
  {
    if ls == [] then []
    else (if ls[0] == [] then [] else [ls[0]]) + NonEmpty(ls[1..])
  }

  /** The filter keeps exactly the non-empty lines */
  lemma {:induction false} NonEmptyKeepsExactly(ls: seq<string>)
    ensures forall l :: l in NonEmpty(ls) <==> l in ls && l != []
  {
    if ls != [] {
      NonEmptyKeepsExactly(ls[1..]);
      assert ls == [ls[0]] + ls[1..];
    }
  }

  /** The lines after the header that are not empty */
  function DataLines(text: string): seq<string> {
    var ls := Lines(text);
    if ls == [] then [] else NonEmpty(ls[1..])
  }

  /** `r` is how the pipeline reports `line` under number `lineNum`: the
      row's entry when it parses, and otherwise the number, the text and the
      field at which parsing stopped */
  predicate Reports(r: RowResult, line: string, lineNum: nat, readFloat: FloatReader) {
    var parsed := ParseRow(line, readFloat);
    && (r.Success? <==> parsed.Success?)
    && (r.Success? ==> r.value == parsed.value)
    && (r.Failure? ==> r.error == LineError(lineNum, line, parsed.error))
  }

  /** One line's result, reporting a failure under the given line number */
  function RowOutcome(line: string, lineNum: nat, readFloat: FloatReader): RowResult
  {
    var parsed := ParseRow(line, readFloat);
    if parsed.Success? then Success(parsed.value)
    else Failure(LineError(lineNum, line, parsed.error))
  }

  /** `enumerate`, with positions counted from `first` */
  function EnumerateFrom(ls: seq<string>, first: nat): seq<(nat, string)>
  {
    seq(|ls|, i requires 0 <= i < |ls| => (first + i, ls[i]))
  }

  /** Parse every numbered line */
  function Outcomes(numbered: seq<(nat, string)>, readFloat: FloatReader): seq<RowResult>
  {
    seq(|numbered|, i requires 0 <= i < |numbered| => RowOutcome(numbered[i].1, numbered[i].0, readFloat))
  }

  /** Each numbered line is reported under its own number */
  lemma OutcomesReport(numbered: seq<(nat, string)>, readFloat: FloatReader)
    ensures |Outcomes(numbered, readFloat)| == |numbered|
    ensures forall i :: 0 <= i < |numbered| ==>
      Reports(Outcomes(numbered, readFloat)[i], numbered[i].1, numbered[i].0, readFloat)
  {
  }

  /** `parse_weather_file_contents` as written: the header is skipped, empty
      lines are dropped, and only then are the remaining lines enumerated, so
      the line at position i is reported as line i + 2. */
  function ParseContents(text: string, readFloat: FloatReader): (rows: seq<RowResult>)
    ensures |rows| == |DataLines(text)|
    ensures forall i :: 0 <= i < |rows| ==> Reports(rows[i], DataLines(text)[i], i + 2, readFloat)
  {
    OutcomesReport(EnumerateFrom(DataLines(text), 2), readFloat);
    Outcomes(EnumerateFrom(DataLines(text), 2), readFloat)
  }

  /** The lines of `ls` that are not empty, each with its position in `ls`
      counted from `first` */
  function Numbered(ls: seq<string>, first: nat): (r: seq<(nat, string)>)
    ensures |r| == |NonEmpty(ls)|
    ensures forall j :: 0 <= j < |r| ==> r[j].1 == NonEmpty(ls)[j]
    ensures forall j :: 0 <= j < |r| ==> first <= r[j].0 < first + |ls| && ls[r[j].0 - first] == r[j].1
  {
    if ls == [] then []
    else
      var rest := Numbered(ls[1..], first + 1);
      assert NonEmpty(ls) == (if ls[0] == [] then [] else [ls[0]]) + NonEmpty(ls[1..]);
      (if ls[0] == [] then [] else [(first, ls[0])]) + rest
  }

  /** The positions `Numbered` gives increase down the list */
  lemma {:induction false} NumberedIncreasing(ls: seq<string>, first: nat)
    ensures forall j, j' :: 0 <= j < j' < |Numbered(ls, first)| ==> Numbered(ls, first)[j].0 < Numbered(ls, first)[j'].0
  {
    if ls != [] {
      NumberedIncreasing(ls[1..], first + 1);
      var rest := Numbered(ls[1..], first + 1);
      var head: seq<(nat, string)> := if ls[0] == [] then [] else [(first, ls[0])];
      assert Numbered(ls, first) == head + rest;
      IncreasingAfterHead(head, rest, first);
    }
  }

  /** Putting at most one entry numbered `first` ahead of entries numbered
      above `first`, in increasing order, keeps the order increasing */
  lemma IncreasingAfterHead(head: seq<(nat, string)>, rest: seq<(nat, string)>, first: nat)
    requires |head| <= 1 && forall j :: 0 <= j < |head| ==> head[j].0 == first
    requires forall k :: 0 <= k < |rest| ==> first < rest[k].0
    requires forall j, j' :: 0 <= j < j' < |rest| ==> rest[j].0 < rest[j'].0
    ensures forall j, j' :: 0 <= j < j' < |head + rest| ==> (head + rest)[j].0 < (head + rest)[j'].0
  {
    var r := head + rest;
    forall j, j' | 0 <= j < j' < |r|
      ensures r[j].0 < r[j'].0
    {
      assert r[j'] == rest[j' - |head|];
      if j >= |head| {
        assert r[j] == rest[j - |head|];
      }
    }
  }

  /** Every non-empty line gets its own position from `Numbered` */
  lemma {:induction false} NumberedCovers(ls: seq<string>, first: nat, i: nat)
    requires i < |ls| && ls[i] != []
    ensures exists j :: 0 <= j < |Numbered(ls, first)| && Numbered(ls, first)[j].0 == first + i
  {
    var rest := Numbered(ls[1..], first + 1);
    var head: seq<(nat, string)> := if ls[0] == [] then [] else [(first, ls[0])];
    assert Numbered(ls, first) == head + rest;
    if i == 0 {
      assert (head + rest)[0].0 == first;
    } else {
      assert ls[1..][i - 1] == ls[i];
      NumberedCovers(ls[1..], first + 1, i - 1);
      var j :| 0 <= j < |rest| && rest[j].0 == first + i;
      FoundAfterHead(head, rest, j);
    }
  }

  /** An entry of `rest` is still found once a head is put in front */
  lemma FoundAfterHead(head: seq<(nat, string)>, rest: seq<(nat, string)>, j: nat)
    requires j < |rest|
    ensures 0 <= |head| + j < |head + rest| && (head + rest)[|head| + j] == rest[j]
  {
  }

  /** The data lines with their 1-based line numbers in the file */
  function NumberedDataLines(text: string): (r: seq<(nat, string)>)
    ensures |r| == |DataLines(text)|
    ensures forall j :: 0 <= j < |r| ==> r[j].1 == DataLines(text)[j]
    ensures forall j :: 0 <= j < |r| ==> 2 <= r[j].0 <= |Lines(text)| && Lines(text)[r[j].0 - 1] == r[j].1
  {
    var ls := Lines(text);
    if ls == [] then [] else NumberedAfterHeader(ls); Numbered(ls[1..], 2)
  }

  /** Numbering the lines after the header from 2 gives each its 1-based
      line number in the whole list */
  lemma NumberedAfterHeader(ls: seq<string>)
    requires ls != []
    ensures forall j :: 0 <= j < |Numbered(ls[1..], 2)| ==>
      2 <= Numbered(ls[1..], 2)[j].0 <= |ls| && ls[Numbered(ls[1..], 2)[j].0 - 1] == Numbered(ls[1..], 2)[j].1
  {
    var r := Numbered(ls[1..], 2);
    forall j | 0 <= j < |r|
      ensures 2 <= r[j].0 <= |ls| && ls[r[j].0 - 1] == r[j].1
    {
      assert ls[1..][r[j].0 - 2] == r[j].1;
    }
  }

  /** The file numbering is the file's own: numbers increase down the file,
      and every non-empty line after the header is numbered, with its 1-based
      line number */
  lemma FileLineNumbers(text: string)
    ensures forall j, j' :: 0 <= j < j' < |NumberedDataLines(text)| ==>
      NumberedDataLines(text)[j].0 < NumberedDataLines(text)[j'].0
    ensures forall k :: 1 <= k < |Lines(text)| && Lines(text)[k] != [] ==>
      exists j :: 0 <= j < |NumberedDataLines(text)| && NumberedDataLines(text)[j].0 == k + 1
  {
    var ls := Lines(text);
    if ls != [] {
      var n := Numbered(ls[1..], 2);
      assert NumberedDataLines(text) == n;
      NumberedIncreasing(ls[1..], 2);
      forall k | 1 <= k < |ls| && ls[k] != []
        ensures exists j :: 0 <= j < |n| && n[j].0 == k + 1
      {
        assert ls[1..][k - 1] == ls[k];
        NumberedCovers(ls[1..], 2, k - 1);
      }
    }
  }

  /** A failure names the line that holds the failing text */
  predicate PointsAtLine(r: RowResult, lines: seq<string>) {
    r.Failure? ==> 1 <= r.error.lineNum <= |lines| && lines[r.error.lineNum - 1] == r.error.line
  }

  /** The pipeline with each failure reported under its line number in the
      file, blank lines included */
  function ParseContentsFileNumbered(text: string, readFloat: FloatReader): (rows: seq<RowResult>)
    ensures |rows| == |DataLines(text)|
    ensures forall i :: 0 <= i < |rows| ==>
      Reports(rows[i], DataLines(text)[i], NumberedDataLines(text)[i].0, readFloat)
    ensures forall i :: 0 <= i < |rows| ==> PointsAtLine(rows[i], Lines(text))
  {
    FileNumberedReports(text, readFloat);
    Outcomes(NumberedDataLines(text), readFloat)
  }

  /** The contract of `ParseContentsFileNumbered`, proved on its body */
  lemma FileNumberedReports(text: string, readFloat: FloatReader)
    ensures |Outcomes(NumberedDataLines(text), readFloat)| == |DataLines(text)|
    ensures forall i :: 0 <= i < |Outcomes(NumberedDataLines(text), readFloat)| ==>
      Reports(Outcomes(NumberedDataLines(text), readFloat)[i], DataLines(text)[i], NumberedDataLines(text)[i].0, readFloat)
    ensures forall i :: 0 <= i < |Outcomes(NumberedDataLines(text), readFloat)| ==>
      PointsAtLine(Outcomes(NumberedDataLines(text), readFloat)[i], Lines(text))
  {
    var numbered := NumberedDataLines(text);
    var rows := Outcomes(numbered, readFloat);
    OutcomesReport(numbered, readFloat);
    ReportsOfSameLines(DataLines(text), numbered, rows, readFloat);
    ErrorsPointAtLines(Lines(text), numbered, rows, readFloat);
  }

  /** Reports about the numbered lines are reports about the lines themselves */
  lemma ReportsOfSameLines(lines: seq<string>, numbered: seq<(nat, string)>, rows: seq<RowResult>,
                           readFloat: FloatReader)
    requires |lines| == |numbered| == |rows|
    requires forall j :: 0 <= j < |numbered| ==> numbered[j].1 == lines[j]
    requires forall i :: 0 <= i < |rows| ==> Reports(rows[i], numbered[i].1, numbered[i].0, readFloat)
    ensures forall i :: 0 <= i < |rows| ==> Reports(rows[i], lines[i], numbered[i].0, readFloat)
  {
  }

  /** When every number names the line that holds its text, so does every
      failure reported under those numbers */
  lemma ErrorsPointAtLines(lines: seq<string>, numbered: seq<(nat, string)>, rows: seq<RowResult>,
                           readFloat: FloatReader)
    requires forall j :: 0 <= j < |numbered| ==> 1 <= numbered[j].0 <= |lines| && lines[numbered[j].0 - 1] == numbered[j].1
    requires |rows| == |numbered|
    requires forall i :: 0 <= i < |rows| ==> Reports(rows[i], numbered[i].1, numbered[i].0, readFloat)
    ensures forall i :: 0 <= i < |rows| ==> PointsAtLine(rows[i], lines)
  {
  }

  /** The two numberings agree on everything but the line numbers */
  lemma NumberingOnlyDiffers(text: string, readFloat: FloatReader)
    ensures SameOutcomes(ParseContentsFileNumbered(text, readFloat), ParseContents(text, readFloat))
  {
    var a, b := ParseContentsFileNumbered(text, readFloat), ParseContents(text, readFloat);
    var data, lines := NumberedDataLines(text), EnumerateFrom(DataLines(text), 2);
    forall i | 0 <= i < |a|
      ensures SameOutcome(a[i], b[i])
    {
      assert data[i].1 == lines[i].1;
      RowOutcomeNumberFree(data[i].1, data[i].0, lines[i].0, readFloat);
    }
  }

  predicate SameOutcome(a: RowResult, b: RowResult) {
    && a.Success? == b.Success?
    && (a.Success? ==> a.value == b.value)
    && (a.Failure? ==> a.error.line == b.error.line && a.error.error == b.error.error)
  }

  lemma RowOutcomeNumberFree(line: string, n: nat, m: nat, readFloat: FloatReader)
    ensures SameOutcome(RowOutcome(line, n, readFloat), RowOutcome(line, m, readFloat))
  {
  }

  /** Two pipelines agree on every row except, perhaps, the line number */
  predicate SameOutcomes(a: seq<RowResult>, b: seq<RowResult>) {
    |a| == |b| && forall i :: 0 <= i < |a| ==> SameOutcome(a[i], b[i])
  }

  /** For a file with no blank lines the data lines are the rows after the
      header, and the as-written numbering is the file's: one result per row,
      in order, a failure at row i reported as line i + 2. This holds whether
      or not the last row ends in a newline. */
  lemma ParseContentsOfFile(header: string, rows: seq<string>, terminated: bool, readFloat: FloatReader)
    requires IsPlainLine(header)
    requires forall j :: 0 <= j < |rows| ==> IsPlainLine(rows[j]) && rows[j] != []
    ensures var text := Joined([header] + rows, terminated);
      && DataLines(text) == rows
      && |ParseContents(text, readFloat)| == |rows|
      && (forall i :: 0 <= i < |rows| ==> ParseContents(text, readFloat)[i] == RowOutcome(rows[i], i + 2, readFloat))
      && (forall i :: 0 <= i < |rows| ==> Lines(text)[i + 1] == rows[i])
  {
    var ls := [header] + rows;
    LinesOfJoined(ls, terminated);
    ContentsOfLines(Joined(ls, terminated), ls, header, rows, terminated, readFloat);
  }

  /** The step of `ParseContentsOfFile` after the file is split into lines */
  lemma ContentsOfLines(text: string, ls: seq<string>, header: string, rows: seq<string>, terminated: bool,
                        readFloat: FloatReader)
    requires ls == [header] + rows
    requires forall j :: 0 <= j < |rows| ==> rows[j] != []
    requires terminated || ls == [] || ls[|ls| - 1] != [] ==> Lines(text) == ls
    requires !terminated && ls != [] && ls[|ls| - 1] == [] ==> Lines(text) == ls[..|ls| - 1]
    ensures DataLines(text) == rows
    ensures |ParseContents(text, readFloat)| == |rows|
    ensures forall i :: 0 <= i < |rows| ==> ParseContents(text, readFloat)[i] == RowOutcome(rows[i], i + 2, readFloat)
    ensures forall i :: 0 <= i < |rows| ==> Lines(text)[i + 1] == rows[i]
  {
    if terminated || ls[|ls| - 1] != [] {
      DataLinesAfterHeader(text, header, rows);
      NonEmptyOfNonEmpty(rows);
    } else {
      assert rows == [] && Lines(text) == [];
    }
  }

  lemma {:induction false} NonEmptyOfNonEmpty(ls: seq<string>)
    requires forall j :: 0 <= j < |ls| ==> ls[j] != []
    ensures NonEmpty(ls) == ls
  {
    if ls != [] {
      NonEmptyOfNonEmpty(ls[1..]);
    }
  }

  lemma {:induction false} NonEmptyOfBlank(ls: seq<string>)
    requires forall j :: 0 <= j < |ls| ==> ls[j] == []
    ensures NonEmpty(ls) == []
  {
    if ls != [] {
      NonEmptyOfBlank(ls[1..]);
    }
  }

  /** Blank lines after the header are skipped, whether or not the last
      line ends in a newline */
  lemma DataLinesSkipBlanks(header: string, rows: seq<string>, terminated: bool)
    requires IsPlainLine(header)
    requires forall j :: 0 <= j < |rows| ==> IsPlainLine(rows[j])
    ensures DataLines(Joined([header] + rows, terminated)) == NonEmpty(rows)
  {
    var ls := [header] + rows;
    LinesOfJoined(ls, terminated);
    SkipBlanksOfLines(Joined(ls, terminated), ls, header, rows, terminated);
  }

  /** The step of `DataLinesSkipBlanks` after the file is split into lines */
  lemma SkipBlanksOfLines(text: string, ls: seq<string>, header: string, rows: seq<string>, terminated: bool)
    requires ls == [header] + rows
    requires terminated || ls == [] || ls[|ls| - 1] != [] ==> Lines(text) == ls
    requires !terminated && ls != [] && ls[|ls| - 1] == [] ==> Lines(text) == ls[..|ls| - 1]
    ensures DataLines(text) == NonEmpty(rows)
  {
    if terminated || ls[|ls| - 1] != [] {
      DataLinesAfterHeader(text, header, rows);
    } else if rows != [] {
      var init := rows[..|rows| - 1];
      assert ls[..|ls| - 1] == [header] + init;
      DataLinesAfterHeader(text, header, init);
      BlankLastLineDropped(rows);
    } else {
      assert Lines(text) == [];
    }
  }

  /** The data lines are the non-empty lines after the first */
  lemma DataLinesAfterHeader(text: string, header: string, rest: seq<string>)
    requires Lines(text) == [header] + rest
    ensures DataLines(text) == NonEmpty(rest)
  {
    assert ([header] + rest)[1..] == rest;
  }

  /** A blank last line contributes no data line */
  lemma BlankLastLineDropped(rows: seq<string>)
    requires rows != [] && rows[|rows| - 1] == []
    ensures NonEmpty(rows) == NonEmpty(rows[..|rows| - 1])
  {
    var init := rows[..|rows| - 1];
    var blank: seq<string> := [[]];
    assert rows == init + blank;
    NonEmptyAppend(init, blank);
    assert NonEmpty(blank) == [] by {
      assert blank[1..] == [];
    }
  }

  /** The filter works line by line */
  lemma {:induction false} NonEmptyAppend(a: seq<string>, b: seq<string>)
    ensures NonEmpty(a + b) == NonEmpty(a) + NonEmpty(b)
  {
    if a != [] {
      assert (a + b)[0] == a[0];
      assert (a + b)[1..] == a[1..] + b;
      NonEmptyAppend(a[1..], b);
    } else {
      assert a + b == b;
    }
  }

  /** The as-written numbering is off after a blank line: a bad row on line 3
      behind a blank line 2 is reported as line 2, which holds the blank line;
      the file-numbered pipeline reports line 3. */
  lemma BlankLineShiftsReportedNumber(header: string, row: string, readFloat: FloatReader)
    requires IsPlainLine(header) && IsPlainLine(row) && row != []
    requires ParseRow(row, readFloat).Failure?
    ensures var text := Unlines([header, "", row]);
      && Lines(text) == [header, "", row]
      && DataLines(text) == [row]
      && ParseContents(text, readFloat)[0] == Failure(LineError(2, row, ParseRow(row, readFloat).error))
      && Lines(text)[2 - 1] != row
      && ParseContentsFileNumbered(text, readFloat)[0] == Failure(LineError(3, row, ParseRow(row, readFloat).error))
  {
    var text := Unlines([header, "", row]);
    LinesOfUnlines([header, "", row]);
    assert Lines(text)[1..] == ["", row];
    assert NonEmpty(["", row]) == [row] by {
      assert ["", row][1..] == [row];
      assert [row][1..] == [];
    }
    var numbered := Numbered(["", row], 2);
    assert |numbered| == 1;
    assert numbered[0].0 == 3;
  }

  /** The entries of the rows that parsed, in order */
  function Successes(rows: seq<RowResult>): (r: seq<Entry>)
    ensures |r| + ErrorCount(rows) == |rows|
    ensures (forall i :: 0 <= i < |rows| ==> rows[i].Success?) ==>
      |r| == |rows| && forall i :: 0 <= i < |rows| ==> r[i] == rows[i].value
  {
    if rows == [] then []
    else (if rows[0].Success? then [rows[0].value] else []) + Successes(rows[1..])
  }

  function ErrorCount(rows: seq<RowResult>): (n: nat)
    ensures n == 0 <==> forall i :: 0 <= i < |rows| ==> rows[i].Success?
    ensures n <= |rows|
  {
    if rows == [] then 0
    else (if rows[0].Failure? then 1 else 0) + ErrorCount(rows[1..])
  }

  /** The positions of the rows that failed to parse */
  function FailedRows(rows: seq<RowResult>): set<nat> {
    set i: nat | i < |rows| && rows[i].Failure?
  }

  /** The error count is the number of rows that failed, the count the
      load's panic reports */
  lemma {:induction false} ErrorCountIsFailedRows(rows: seq<RowResult>)
    ensures ErrorCount(rows) == |FailedRows(rows)|
  {
    if rows != [] {
      var n := |rows| - 1;
      var init := rows[..n];
      assert rows == init + [rows[n]];
      ErrorCountAppend(init, [rows[n]]);
      assert [rows[n]][1..] == [];
      ErrorCountIsFailedRows(init);
      if rows[n].Failure? {
        assert FailedRows(rows) == FailedRows(init) + {n};
      } else {
        assert FailedRows(rows) == FailedRows(init);
      }
    }
  }

  /** Counting the failures of two stretches of rows separately */
  lemma {:induction false} ErrorCountAppend(a: seq<RowResult>, b: seq<RowResult>)
    ensures ErrorCount(a + b) == ErrorCount(a) + ErrorCount(b)
  {
    if a != [] {
      assert (a + b)[1..] == a[1..] + b;
      ErrorCountAppend(a[1..], b);
    } else {
      assert a + b == b;
    }
  }

  lemma {:induction false} SameOutcomesSameEntries(a: seq<RowResult>, b: seq<RowResult>)
    requires SameOutcomes(a, b)
    ensures Successes(a) == Successes(b) && ErrorCount(a) == ErrorCount(b)
  {
    if a != [] {
      assert SameOutcomes(a[1..], b[1..]) by {
        assert forall i :: 0 <= i < |a| - 1 ==> a[1..][i] == a[i + 1] && b[1..][i] == b[i + 1];
      }
      SameOutcomesSameEntries(a[1..], b[1..]);
    }
  }

  /** Why the dataset could not be loaded: the number of bad lines */
  datatype LoadError = ParseErrors(count: nat)

  /** The load step: any bad row fails the whole load, otherwise the entries
      are sorted by date */
  function LoadRows(rows: seq<RowResult>): (r: Result<seq<Entry>, LoadError>)
    ensures r.Failure? <==> exists i :: 0 <= i < |rows| && rows[i].Failure?
    ensures r.Failure? ==> r.error.count == ErrorCount(rows) > 0
    ensures r.Success? ==> SortedByDate(r.value)
    ensures r.Success? ==> multiset(r.value) == multiset(Successes(rows)) && |r.value| == |rows|
  {
    var count := ErrorCount(rows);
    if count > 0 then Failure(ParseErrors(count))
    else Success(SortByDate(Successes(rows)))
  }

  /** `weather_entries` on a file text: the load fails when any data line
      fails to parse, reporting how many did, and otherwise holds one entry
      per data line, sorted by date */
  function Load(text: string, readFloat: FloatReader): (r: Result<seq<Entry>, LoadError>)
    ensures r.Failure? <==> exists i :: 0 <= i < |DataLines(text)| && ParseRow(DataLines(text)[i], readFloat).Failure?
    ensures r.Failure? ==> 0 < r.error.count <= |DataLines(text)|
    ensures r.Failure? ==> r.error.count == |FailedLines(text, readFloat)|
    ensures r.Success? ==> SortedByDate(r.value) && |r.value| == |DataLines(text)|
  {
    var rows := ParseContents(text, readFloat);
    assert forall i :: 0 <= i < |rows| ==> (rows[i].Failure? <==> ParseRow(DataLines(text)[i], readFloat).Failure?);
    ErrorCountIsFailedRows(rows);
    assert FailedRows(rows) == FailedLines(text, readFloat);
    LoadRows(rows)
  }

  /** The positions of the data lines that do not parse */
  function FailedLines(text: string, readFloat: FloatReader): set<nat> {
    set i: nat | i < |DataLines(text)| && ParseRow(DataLines(text)[i], readFloat).Failure?
  }

  /** A loaded file holds the entry of every data line */
  lemma LoadHoldsEveryRow(text: string, readFloat: FloatReader, i: nat)
    requires Load(text, readFloat).Success? && i < |DataLines(text)|
    ensures ParseRow(DataLines(text)[i], readFloat).Success?
    ensures ParseRow(DataLines(text)[i], readFloat).value in Load(text, readFloat).value
  {
    var rows := ParseContents(text, readFloat);
    assert rows[i].Success?;
    assert Successes(rows)[i] == rows[i].value;
    assert rows[i].value in multiset(Successes(rows));
  }

  /** Line numbers play no part in loading: the file-numbered pipeline loads
      the same dataset or fails with the same count */
  lemma LoadIgnoresNumbering(text: string, readFloat: FloatReader)
    ensures Load(text, readFloat) == LoadRows(ParseContentsFileNumbered(text, readFloat))
  {
    NumberingOnlyDiffers(text, readFloat);
    SameOutcomesSameEntries(ParseContentsFileNumbered(text, readFloat), ParseContents(text, readFloat));
  }

  /** A file that has no data lines, only a header or nothing at all, loads
      as an empty dataset rather than failing */
  lemma LoadEmptyFile(text: string, readFloat: FloatReader)
    requires forall j :: 1 <= j < |Lines(text)| ==> Lines(text)[j] == []
    ensures Load(text, readFloat) == Success([])
  {
    var ls := Lines(text);
    if ls != [] {
      assert forall l :: l in ls[1..] ==> l == [];
      NonEmptyOfBlank(ls[1..]);
    }
  }

  /** A loaded file lists every entry of its rows, sorted by date; entries
      sharing a date keep their order in the file */
  lemma LoadKeepsFileOrderPerDate(text: string, readFloat: FloatReader, d: Calendar.Date)
    requires Load(text, readFloat).Success?
    ensures WithDate(Load(text, readFloat).value, d) == WithDate(Successes(ParseContents(text, readFloat)), d)
  {
    SortIsStable(Successes(ParseContents(text, readFloat)), d);
  }
}

=== FILE: weather_kinds.dfy ===
/** `WeatherKind` and its case-insensitive `FromStr`: a name matches a kind
    when it equals the variant name up to ASCII case. */
module WeatherKinds {
  import opened Wrappers

  datatype Kind = Drizzle | Rain | Snow | Sun | Fog

  /** The variant name the string conversion compares against */
  function Name(k: Kind): string {
    match k
    case Drizzle => "Drizzle"
    case Rain => "Rain"
    case Snow => "Snow"
    case Sun => "Sun"
    case Fog => "Fog"
  }

  /** `char::to_ascii_lowercase`: only 'A'..'Z' change */
  function AsciiLower(c: char): char {
    if 'A' <= c <= 'Z' then (c as int + 32) as char else c
  }

  /** `str::eq_ignore_ascii_case` */
  predicate EqIgnoreAsciiCase(a: string, b: string) {
    |a| == |b| && forall i :: 0 <= i < |a| ==> AsciiLower(a[i]) == AsciiLower(b[i])
  }

  function ParseKind(s: string): (r: Option<Kind>)
    ensures r.Some? ==> EqIgnoreAsciiCase(s, Name(r.value))
  {
    if EqIgnoreAsciiCase(s, "Drizzle") then Some(Drizzle)
    else if EqIgnoreAsciiCase(s, "Rain") then Some(Rain)
    else if EqIgnoreAsciiCase(s, "Snow") then Some(Snow)
    else if EqIgnoreAsciiCase(s, "Sun") then Some(Sun)
    else if EqIgnoreAsciiCase(s, "Fog") then Some(Fog)
    else None
  }

  /** The text with every ASCII capital lowered */
  function Lowered(s: string): (r: string)
    ensures |r| == |s| && forall i :: 0 <= i < |s| ==> r[i] == AsciiLower(s[i])
  {
    seq(|s|, i requires 0 <= i < |s| => AsciiLower(s[i]))
  }

  lemma EqIgnoreAsciiCaseLowered(a: string, b: string)
    ensures EqIgnoreAsciiCase(a, b) <==> Lowered(a) == Lowered(b)
  {
    if Lowered(a) == Lowered(b) {
      assert forall i :: 0 <= i < |a| ==> Lowered(a)[i] == Lowered(b)[i];
    }
  }

  /** No text names two kinds */
  lemma NamesDistinguishable(s: string, k: Kind, k': Kind)
    requires EqIgnoreAsciiCase(s, Name(k)) && EqIgnoreAsciiCase(s, Name(k'))
    ensures k == k'
  {
    EqIgnoreAsciiCaseLowered(s, Name(k));
    EqIgnoreAsciiCaseLowered(s, Name(k'));
    assert Lowered(Name(k)) == Lowered(Name(k'));
    assert Lowered(Name(k))[0] == Lowered(Name(k'))[0];
    assert Lowered(Name(k))[|Name(k)| - 1] == Lowered(Name(k'))[|Name(k)| - 1];
  }

  /** The conversion yields `k` exactly when the text is k's name up to
      ASCII case */
  lemma ParseKindIff(s: string, k: Kind)
    ensures ParseKind(s) == Some(k) <==> EqIgnoreAsciiCase(s, Name(k))
  {
    if EqIgnoreAsciiCase(s, Name(k)) {
      var r := ParseKind(s);
      if r.None? {
        match k
        case Drizzle => assert false;
        case Rain => assert false;
        case Snow => assert false;
        case Sun => assert false;
        case Fog => assert false;
      } else {
        NamesDistinguishable(s, k, r.value);
      }
    }
  }

  /** Lower-case, upper-case and mixed spellings all convert */
  lemma ParseKindSpellings()
    ensures ParseKind("rain") == Some(Rain)
    ensures ParseKind("SUN") == Some(Sun)
    ensures ParseKind("dRiZzLe") == Some(Drizzle)
    ensures ParseKind("sunny") == None
    ensures ParseKind("") == None
  {
    ParseKindIff("rain", Rain);
    ParseKindIff("SUN", Sun);
    ParseKindIff("dRiZzLe", Drizzle);
  }
}

=== FILE: weather_rows.dfy ===
/** One row of the weather file: `WeatherEntry` and `parse_weather_row`. The
    four measurements are 32-bit floats read by nom's `float`; their values
    and the float reader stay abstract. */
module WeatherRows {
  import opened Wrappers
  import opened Calendar
  import opened DateParser
  import opened WeatherKinds

  /** An `f32` measurement, kept as its bit pattern and never inspected */
  datatype Measurement = Measurement(bits: bv32)

  datatype Entry = Entry(
    date: Date,
    precipitation: Measurement,
    tempMin: Measurement,
    tempMax: Measurement,
    wind: Measurement,
    weather: Kind)

  /** A float reader returns the value read and the text after it */
  type FloatReader = string -> Option<(Measurement, string)>

  /** The field at which a row failed to parse */
  datatype Field = DateField | PrecipitationField | TempMaxField | TempMinField | WindField | WeatherField

  /** A text that starts with a comma, without it */
  function AfterComma(s: string): Option<string> {
    if |s| > 0 && s[0] == ',' then Some(s[1..]) else None
  }

  /** A float followed by a comma */
  function FloatThenComma(s: string, readFloat: FloatReader): Option<(Measurement, string)> {
    match readFloat(s)
    case None => None
    case Some((v, rest)) =>
      match AfterComma(rest)
      case None => None
      case Some(after) => Some((v, after))
  }

  /** The fields in file order: date, precipitation, temp_max, temp_min, wind,
      and the weather kind, which is the whole rest of the line. */
  function ParseRow(line: string, readFloat: FloatReader): (r: Result<Entry, Field>)
    ensures r.Success? ==> IsValidDate(r.value.date)
  {
    match ParseDate(line)
    case None => Failure(DateField)
    case Some((date, r0)) =>
      match AfterComma(r0)
      case None => Failure(DateField)
      case Some(t1) =>
        match FloatThenComma(t1, readFloat)
        case None => Failure(PrecipitationField)
        case Some((precipitation, t2)) =>
          match FloatThenComma(t2, readFloat)
          case None => Failure(TempMaxField)
          case Some((tempMax, t3)) =>
            match FloatThenComma(t3, readFloat)
            case None => Failure(TempMinField)
            case Some((tempMin, t4)) =>
              match FloatThenComma(t4, readFloat)
              case None => Failure(WindField)
              case Some((wind, t5)) =>
                match ParseKind(t5)
                case None => Failure(WeatherField)
                case Some(weather) => Success(Entry(date, precipitation, tempMin, tempMax, wind, weather))
  }

  lemma FloatThenCommaReads(s: string, readFloat: FloatReader, v: Measurement, rest: string)
    requires readFloat(s) == Some((v, [','] + rest))
    ensures FloatThenComma(s, readFloat) == Some((v, rest))
  {
    assert ([','] + rest)[1..] == rest;
  }

  /** A row whose date and four floats each read up to the next comma yields
      the entry with the second float as temp_max and the third as temp_min;
      the rest of the line must name a kind on its own. */
  lemma ParseRowFieldOrder(line: string, readFloat: FloatReader, date: Date,
                           v1: Measurement, v2: Measurement, v3: Measurement, v4: Measurement,
                           t1: string, t2: string, t3: string, t4: string, t5: string)
    requires ParseDate(line) == Some((date, [','] + t1))
    requires readFloat(t1) == Some((v1, [','] + t2))
    requires readFloat(t2) == Some((v2, [','] + t3))
    requires readFloat(t3) == Some((v3, [','] + t4))
    requires readFloat(t4) == Some((v4, [','] + t5))
    ensures ParseRow(line, readFloat) ==
      match ParseKind(t5)
      case Some(k) => Success(Entry(date, v1, v3, v2, v4, k))
      case None => Failure(WeatherField)
  {
    assert AfterComma([','] + t1) == Some(t1);
    FloatThenCommaReads(t1, readFloat, v1, t2);
    FloatThenCommaReads(t2, readFloat, v2, t3);
    FloatThenCommaReads(t3, readFloat, v3, t4);
    FloatThenCommaReads(t4, readFloat, v4, t5);
  }

  /** A row is rejected at its date whatever follows when the date is not a
      calendar date */
  lemma ParseRowBadDate(line: string, readFloat: FloatReader)
    requires ParseDate(line) == None
    ensures ParseRow(line, readFloat) == Failure(DateField)
  {
  }
}

=== FILE: wrappers.dfy ===
/** Optional values and success/failure results, the shapes Rust's `Option`
    and `Result` take in this model. */
module Wrappers {

  datatype Option<+T> = None | Some(value: T)

  datatype Result<+R, +E> = Success(value: R) | Failure(error: E)
}
